=== FILE: README.md ===
# Perfume production pipeline: a verified model

This project models the core of a perfume-production system built from
microservices. Plants are grown and harvested by the production service.
They are turned into bottled perfumes by processing in the storage service.
Packed packages are sent from storage by a distributive center or a
warehouse center. Orders in the sales service consume those packages, and
the analysis service writes fiscal receipts. Around this pipeline sit small
decision functions:

- the user validators;
- the gateway's role check, forwarded headers, base URLs and factor
  normalisation;
- the storage service's gateway-key check and role guard.

Each database table is a class. Its fields are a `seq` of rows in creation
order and the next auto-increment id. The loops that flip statuses row by
row are `for`/`while` loops, proved against specification predicates:

- `UpdatedAt` says which rows changed and how.
- `FirstMatches` gives the first `take` matching rows in table order. This
  is what `find({ where, take, order: { createdAt: "ASC" } })` returns. The
  same function stands in for the queries that name no order; see
  "## Left out".
- `SentOldestFirst` gives the packages a send run moves to SENT.

Pure code (validators, header building, number formatting, strength
arithmetic) is made of functions and lemmas.

Units:

- Plant strength is an integer number of hundredths, so 4.00 is 400.
- The `value` of `adjustAromaticStrength` is in basis points, so 65 % is 6500.
- Factors are in ten-thousandths, so 0.65 is 6500.
- Money is in cents.
- Dates are day numbers.
- `Number(x.toFixed(k))` is exact rounding to the nearest unit, with halves
  away from zero (`Common.RoundDiv`).

Answers from other services are passed in as parameters: the plants supplied
to processing, and the packages storage sends to sales. Calls made to other
services are returned as an ordered log (`Processing.ProductionCall`).
Delays are returned as the milliseconds paused. The clock is passed in.

The two plant services (`production-microservice` and
`proizvodnja-microservice`) keep the same table with the same operations,
except `plantAndScale`. They share one class, `Production.PlantTable`, with
`PlantAndScale` for the first service and `PlantAndScaleByFactor` for the
second.

The production `plantAndScale` multiplies the source strength by its excess
over 4.00. Inside the strength domain (at most 5.00) that excess is at most
1, so for source strengths in (4.00, 5.00] the offspring is at most as
strong as its source, equally strong only at exactly 5.00.
`Production.OffspringNotStronger` proves it.

## Model

Paths are relative to the repository root.

| member | source | states |
|---|---|---|
| Common.RoundDiv | infrastructure/microservices/production-microservice/src/Services/ProductionService.ts:51-61 | `Number(q.toFixed(k))` in units of `10^-k`: the result is within half a unit of `num / den`, with ties going away from zero |
| Common.RoundDivExact | infrastructure/microservices/production-microservice/src/Services/ProductionService.ts:59-61 | rounding a value that is already exact leaves it unchanged |
| Common.RoundDivMonotone | infrastructure/microservices/production-microservice/src/Services/ProductionService.ts:51-61 | rounding keeps order: a larger numerator never rounds lower |
| Text.NatToString | infrastructure/microservices/storage-microservice/src/Services/StorageService.ts:17 | `String(n)` for a natural number: non-empty, all digits, no leading zero, and its digits read back as `n` |
| Text.Serial | infrastructure/microservices/storage-microservice/src/Services/StorageService.ts:17 | a serial is the prefix followed by the decimal id, and the id can be read back from the digits after the prefix |
| Text.SerialInjective | infrastructure/microservices/storage-microservice/src/Services/StorageService.ts:17 | two ids with the same serial are equal |
| Text.ParseIntToString | infrastructure/microservices/storage-microservice/src/middleware/GatewayAuth.ts:26 | `Number(String(i))` gives back every integer `i` |
| Text.Trim | infrastructure/microservices/user-microservice/src/WebAPI/controllers/controllers/validators/CreateUserValidator.ts:8 | `trim()` keeps a contiguous part of the string that neither starts nor ends with white space |
| Text.TrimEmptyIffBlank | infrastructure/microservices/user-microservice/src/WebAPI/controllers/controllers/validators/CreateUserValidator.ts:8 | trimming leaves nothing exactly when the string is all white space |
| Text.Lower | infrastructure/gateway-api/src/Middlewares/authorization/AuthorizeMiddleware.ts:4 | `toLowerCase()` maps each character and keeps the length |
| Text.LowerIdempotent | infrastructure/gateway-api/src/Middlewares/authorization/AuthorizeMiddleware.ts:4-11 | lower-casing twice is the same as lower-casing once |
| Tables.FirstMatches | infrastructure/microservices/production-microservice/src/Services/ProductionService.ts:73-76 | `find({ where: P, take: n })` in table order: `min(n, #matching)` positions, increasing, all matching, with no matching row skipped before the last one |
| Tables.FirstMatchesAll | infrastructure/microservices/production-microservice/src/Services/ProductionService.ts:104-107 | when fewer than `n` rows come back, every matching row is among them |
| Tables.FindFirst | infrastructure/microservices/production-microservice/src/Services/ProductionService.ts:46 | `findOne({ where })`: the first matching position, or none exactly when no row matches |
| Tables.UpdatedAtStep | infrastructure/microservices/production-microservice/src/Services/ProductionService.ts:82-85 | saving one more selected row extends the "rows selected so far are updated, the rest unchanged" relation by one position |
| Tables.MatchesAfterUpdate | infrastructure/microservices/storage-microservice/src/Services/DistributiveCenterService.ts:19-28 | after the first `k` matching rows are moved out of the predicate, the matching rows are exactly the remaining ones, in order |
| Tables.IdsValidAppend | infrastructure/microservices/storage-microservice/src/Services/StorageService.ts:16 | saving a new row under the next auto-increment id keeps ids unique, increasing and below the counter |
| Tables.NewestFirst | infrastructure/microservices/sales-microservice/src/Services/SalesService.ts:38-40 | the rows in reverse creation order |
| Production.AdjustedStrength | infrastructure/microservices/production-microservice/src/Services/ProductionService.ts:49-62 | `inc` gives `s + s*v/100` and `scale` gives `s*v/100`, each rounded to two decimals |
| Production.IncIsScale | infrastructure/microservices/production-microservice/src/Services/ProductionService.ts:49-62 | incrementing by `v` % equals scaling to `100 + v` % |
| Production.AdjustNeutral | infrastructure/microservices/production-microservice/src/Services/ProductionService.ts:49-62 | `inc` by 0 and `scale` by 100 both keep the strength |
| Production.AdjustMonotone | infrastructure/microservices/production-microservice/src/Services/ProductionService.ts:49-62 | for a non-negative strength, a larger `value` never gives a weaker plant, in either mode |
| Production.OffspringStrength | infrastructure/microservices/production-microservice/src/Services/ProductionService.ts:113-118 | the offspring strength is `s` itself when `s <= 4.00`, and otherwise `s * (s - 4.00)` rounded to two decimals |
| Production.OffspringNotStronger | infrastructure/microservices/production-microservice/src/Services/ProductionService.ts:113-118 | for `4.00 < s <= 5.00` the offspring is between 0 and `s`, and strictly weaker below 5.00 |
| Production.ScaledStrength | infrastructure/microservices/proizvodnja-microservice/src/Services/ProductionService.ts:82-83 | `s * factor` rounded to two decimals |
| Production.ScaledNotStronger | infrastructure/microservices/proizvodnja-microservice/src/Services/ProductionService.ts:82-83 | a factor between 0 and 1 never gives a stronger offspring |
| Production.UpdateForward | infrastructure/microservices/production-microservice/src/Services/ProductionService.ts:96-99 | an id-preserving update that moves each selected row forward keeps the order PLANTED < HARVESTED < PROCESSED for every row |
| Production.HarvestForward | infrastructure/microservices/production-microservice/src/Services/ProductionService.ts:82-85 | harvesting PLANTED rows of a name moves the table forward, and each harvested row is HARVESTED with that name |
| Production.PlantTable.PlantNew | infrastructure/microservices/production-microservice/src/Services/ProductionService.ts:23-38 | appends one PLANTED plant under a new id; a supplied strength is kept, and otherwise the drawn one is used; missing names default to "Unknown Plant", "Unknown Latin" and "Unknown" |
| Production.PlantTable.AdjustStrength | infrastructure/microservices/production-microservice/src/Services/ProductionService.ts:41-66 | an absent id gives "Plant not found" and no change; otherwise only that plant's strength changes, to `AdjustedStrength` |
| Production.PlantTable.UpdateRows | infrastructure/microservices/production-microservice/src/Services/ProductionService.ts:82-85 | the save loop leaves the selected rows updated and every other row unchanged, and keeps ids valid |
| Production.PlantTable.HarvestMany | infrastructure/microservices/production-microservice/src/Services/ProductionService.ts:69-88 | fails with "No plants available" and no change iff no PLANTED plant has the name; otherwise the first `count` such plants become HARVESTED and are returned, between 1 and `count` of them |
| Production.PlantTable.MarkPlantsUsed | infrastructure/microservices/production-microservice/src/Services/ProductionService.ts:91-100 | every row whose id is listed becomes PROCESSED whatever its status, and every other row is unchanged; an empty list changes nothing |
| Production.PlantTable.AvailablePlants | infrastructure/microservices/production-microservice/src/Services/ProductionService.ts:103-110 | `min(count, #PLANTED)` PLANTED rows of the table, each at most once (ids strictly increasing); every PLANTED plant when fewer come back; reads only |
| Production.PlantTable.PlantAndScale | infrastructure/microservices/production-microservice/src/Services/ProductionService.ts:113-119 | appends one PLANTED plant with the default names and strength `OffspringStrength(sourceStrength)` |
| Production.PlantTable.PlantAndScaleByFactor | infrastructure/microservices/proizvodnja-microservice/src/Services/ProductionService.ts:82-86 | appends one PLANTED plant with the default names and strength `ScaledStrength(sourceStrength, factor)`; an omitted factor (`None`) plants `ScaledStrength(sourceStrength, DefaultFactor)`, the default 0.65 |
| Production.PlantTable.GetProductionLogs | infrastructure/microservices/production-microservice/src/Services/ProductionService.ts:123-125 | the log is empty |
| Processing.PlantsNeededCovers | infrastructure/microservices/storage-microservice/src/Services/ProcessingService.ts:28-29 | `ceil(bottles * volume / 50)`: the fewest plants whose 50 ml each cover all bottles |
| Processing.ExpirationDay | infrastructure/microservices/storage-microservice/src/Services/ProcessingService.ts:69-74 | expiry is 365 days after the day of creation |
| Processing.UsableIds | infrastructure/microservices/storage-microservice/src/Services/ProcessingService.ts:35 | `map(p => p.id).filter(Boolean)`: one id per plant with a present, non-zero id, in the order of the answer, and nothing else |
| Processing.ReplantRequests | infrastructure/microservices/storage-microservice/src/Services/ProcessingService.ts:38-47 | one `plantAndScale(strength, 65)` request per supplied plant stronger than 4.00, in the order of the answer, and no other request |
| Processing.ReplantRequestsCover | infrastructure/microservices/storage-microservice/src/Services/ProcessingService.ts:38-47 | every supplied plant stronger than 4.00 gets its request, and every request comes from such a plant |
| Processing.RequestReplants | infrastructure/microservices/storage-microservice/src/Services/ProcessingService.ts:38-47 | the loop issues exactly `ReplantRequests(plants)` |
| Processing.BottleAppend | infrastructure/microservices/storage-microservice/src/Services/ProcessingService.ts:59-61 | a bottle saved under the next id and then given `PP-2025-<id>` keeps the table valid |
| Processing.PerfumeTable.SerialsUnique | infrastructure/microservices/storage-microservice/src/Services/ProcessingService.ts:60 | no two perfumes share a serial |
| Processing.PerfumeTable.ProcessPerfume | infrastructure/microservices/storage-microservice/src/Services/ProcessingService.ts:27-67 | too few or no plants supplied: "Production couldn't provide required plants", no rows and no calls; otherwise the replant requests, then exactly `bottles` new AVAILABLE perfumes, then one report of the usable ids, last |
| Processing.PerfumeTable.CreateBottles | infrastructure/microservices/storage-microservice/src/Services/ProcessingService.ts:49-63 | the bottle loop appends `bottles` rows, with consecutive new ids, the given volume, the plant ids, expiry and serial `PP-2025-<id>` |
| Processing.PerfumeTable.ListAvailable | infrastructure/microservices/storage-microservice/src/Services/ProcessingService.ts:76-79 | every AVAILABLE perfume and nothing else, each once (ids strictly increasing) |
| Processing.PerfumeTable.GetById | infrastructure/microservices/storage-microservice/src/Services/ProcessingService.ts:81-85 | "Perfume not found" iff no row has the id; otherwise a row with that id |
| Processing.PerfumeTable.ReservePerfumes | infrastructure/microservices/storage-microservice/src/Services/ProcessingService.ts:87-99 | fails with "Not enough perfumes available" and no change iff fewer than `count` AVAILABLE perfumes have the name; otherwise exactly the `count` oldest of them become RESERVED and are returned, and nothing else changes |
| Processing.PerfumeTable.UpdateRows | infrastructure/microservices/storage-microservice/src/Services/ProcessingService.ts:94-97 | the reserve loop marks exactly the selected rows RESERVED |
| Distribution.SentKeepsValid | infrastructure/microservices/storage-microservice/src/Services/DistributiveCenterService.ts:27-28 | marking packages SENT keeps ids and serials valid |
| Distribution.SentOutcome | infrastructure/microservices/storage-microservice/src/Services/DistributiveCenterService.ts:17-31 | after a send: at most `count` packages, exactly `min(count, #PACKED)` of them, each PACKED before and SENT after, none twice (ids increasing), and every package not returned unchanged |
| Distribution.SentPrefixStep | infrastructure/microservices/storage-microservice/src/Services/DistributiveCenterService.ts:19-29 | the oldest PACKED package left is the next one in the plan, and sending it extends the loop invariant |
| Distribution.SendFinish | infrastructure/microservices/storage-microservice/src/Services/DistributiveCenterService.ts:17-24 | a loop stopped at `count` packages, or with none PACKED left, has sent exactly what `find({ PACKED, take: count, createdAt ASC })` returns |
| Distribution.PackageTable.MarkSentAt | infrastructure/microservices/storage-microservice/src/Services/DistributiveCenterService.ts:27-28 | `p.status = SENT; save(p)` changes only that row |
| Distribution.DistributiveCenter.Send | infrastructure/microservices/storage-microservice/src/Services/DistributiveCenterService.ts:15-33 | batches of at most `min(3, count - sent)` send the oldest PACKED packages, in order, and stop when none is left; 500 ms pause per package |
| Distribution.DistributiveCenter.SendBatch | infrastructure/microservices/storage-microservice/src/Services/DistributiveCenterService.ts:25-30 | one batch sends its candidates in order and keeps the loop invariant |
| Distribution.WarehouseCenter.Send | infrastructure/microservices/storage-microservice/src/Services/WarehouseCenterService.ts:15-31 | up to `count` rounds each send the single oldest PACKED package, stopping when none is left; 2500 ms pause per package |
| Distribution.CentersAgree | infrastructure/microservices/storage-microservice/src/Services/WarehouseCenterService.ts:15-31 | for the same table and count, both centers send the same packages in the same order and leave the same table |
| Distribution.StorageService.StorePackage | infrastructure/microservices/storage-microservice/src/Services/StorageService.ts:13-19 | stores one PACKED package under a new id, whatever status the data had, with serial `PKG-2025-<id>` |
| Distribution.StorageService.SendForRole | infrastructure/microservices/storage-microservice/src/Services/StorageService.ts:21-26 | exactly the role "SALES_MANAGER" uses the distributive center and every other role the warehouse; the packages sent are the same either way |
| Distribution.StorageService.ListAvailable | infrastructure/microservices/storage-microservice/src/Services/StorageService.ts:28-30 | every PACKED package and nothing else, oldest first |
| Sales.OrderTable.CreateOrder | infrastructure/microservices/sales-microservice/src/Services/SalesService.ts:11-30 | fails with "Not enough packages available for sale" and records nothing iff fewer ids than `count` came back; otherwise one SHIPPED order holding exactly those ids, serial `ORD-2025-<id>` |
| Sales.OrderTable.GetById | infrastructure/microservices/sales-microservice/src/Services/SalesService.ts:32-36 | "Order not found" iff no row has the id; otherwise a row with that id |
| Sales.OrderTable.ListOrders | infrastructure/microservices/sales-microservice/src/Services/SalesService.ts:38-40 | every order and nothing else, newest first (ids descending) |
| Fulfilment.ForwardedRole | infrastructure/microservices/sales-microservice/src/Services/SalesService.ts:11-12 | the role storage sees: none when the caller's role is missing or empty, otherwise that role |
| Fulfilment.CreateOrderFromStorage | infrastructure/microservices/sales-microservice/src/Services/SalesService.ts:11-16 | storage sends first and those packages stay SENT; when its pauses reach the client's 15 s time-out the call fails with no order; otherwise the order is refused iff fewer than `count` packages came back |
| Fulfilment.TimeOutThresholds | infrastructure/microservices/sales-microservice/src/clients/StorageClient.ts:16-26 | the 15 s time-out is reached by the pauses alone from 6 packages through the warehouse and from 30 through the distributive center |
| Receipts.ToItems | infrastructure/microservices/analysis-microservice/src/Services/ReceiptService.ts:24-32 | one line per requested item, in order, with its fields copied and `ukupno = kolicina * jedinicnaCena` |
| Receipts.FoldIsSum | infrastructure/microservices/analysis-microservice/src/Services/ReceiptService.ts:35-38 | the `reduce` from 0 yields the sum of the line totals |
| Receipts.SumAppend | infrastructure/microservices/analysis-microservice/src/Services/ReceiptService.ts:35-38 | totals of joined line lists add up |
| Receipts.SumBounds | infrastructure/microservices/analysis-microservice/src/Services/ReceiptService.ts:35-38 | with no negative line, the total is non-negative and no line exceeds it |
| Receipts.LineNonNegative | infrastructure/microservices/analysis-microservice/src/Services/ReceiptService.ts:30 | a positive quantity at a non-negative price gives a non-negative line |
| Receipts.Pad2 | infrastructure/microservices/analysis-microservice/src/Services/ReceiptService.ts:50-51 | `padStart(2, "0")` keeps the value, and for numbers below 100 has exactly two digits |
| Receipts.StampSuffix | infrastructure/microservices/analysis-microservice/src/Services/ReceiptService.ts:52 | `slice(-6)` of the timestamp: digits worth `t mod 10^6`, six of them from 100000 ms on |
| Receipts.ReceiptNumber | infrastructure/microservices/analysis-microservice/src/Services/ReceiptService.ts:47-54 | the number starts with "FR-" |
| Receipts.ReceiptNumberFields | infrastructure/microservices/analysis-microservice/src/Services/ReceiptService.ts:47-54 | for a four-digit year and a calendar date, the number has 18 characters, and year, month, day and the timestamp's last six digits can each be read back from their places |
| Receipts.ReceiptNumberRepeats | infrastructure/microservices/analysis-microservice/src/Services/ReceiptService.ts:52-53 | timestamps 1,000,000 ms apart on the same day give the same number |
| Receipts.BuildReceipt | infrastructure/microservices/analysis-microservice/src/Services/ReceiptService.ts:15-38 | number from the clock, sale and payment types copied, one line per item with its total, and total = sum of the lines |
| Users.FirstFailure | infrastructure/microservices/user-microservice/src/WebAPI/controllers/controllers/validators/CreateUserValidator.ts:8-32 | reference reading of a chain of early returns: success iff no check fails, otherwise the message of the first failing check |
| Users.FirstFailureAt | infrastructure/microservices/user-microservice/src/WebAPI/controllers/controllers/validators/CreateUserValidator.ts:8-32 | the first failing check alone decides the answer |
| Users.ValidateCreateUser | infrastructure/microservices/user-microservice/src/WebAPI/controllers/controllers/validators/CreateUserValidator.ts:8-32 | success iff username ≥ 3 and names ≥ 2 characters after trimming, email with "@", known role, and image absent or a "data:image" URL |
| Users.CreateFollowsChecks | infrastructure/microservices/user-microservice/src/WebAPI/controllers/controllers/validators/CreateUserValidator.ts:8-32 | the validator answers what its six checks give when run in order, first failure winning |
| Users.ValidateUpdateUser | infrastructure/microservices/user-microservice/src/WebAPI/controllers/controllers/validators/UpdateUserValidator.ts:8-32 | success iff each sent email, name and role passes and a "data:image" profile image is present; a missing image always fails |
| Users.UpdateFollowsChecks | infrastructure/microservices/user-microservice/src/WebAPI/controllers/controllers/validators/UpdateUserValidator.ts:8-32 | the validator answers what its six checks give when run in order, first failure winning |
| Users.CreateThenUpdate | infrastructure/microservices/user-microservice/src/WebAPI/controllers/controllers/validators/UpdateUserValidator.ts:8-32 | data accepted at creation with a profile image is accepted as an update |
| Users.BlankUsernameRejected | infrastructure/microservices/user-microservice/src/WebAPI/controllers/controllers/validators/CreateUserValidator.ts:8-10 | a username of white space only fails first, with the username message |
| Gateway.Authorize | infrastructure/gateway-api/src/Middlewares/authorization/AuthorizeMiddleware.ts:3-16 | `next` iff the role is present and equals an allowed role up to case; otherwise 403 "Access denied"; an empty list denies everyone |
| Gateway.AuthorizeIgnoresCase | infrastructure/gateway-api/src/Middlewares/authorization/AuthorizeMiddleware.ts:4-11 | lower-casing the role or the allowed list changes no decision |
| Gateway.BuildInternalHeaders | infrastructure/gateway-api/src/utils/buildInternalHeaders.ts:3-14 | the key header always, holding the secret or ""; the id, role and name headers iff the user has those fields, holding their string forms; no other key |
| Gateway.NormalizeUrl | infrastructure/gateway-api/src/Services/GatewayService.ts:8-12 | none for a missing or empty URL; otherwise the URL, less one trailing "/" if it has one |
| Gateway.NormalizeUrlSlash | infrastructure/gateway-api/src/Services/GatewayService.ts:11 | one appended slash is removed, and a URL without one is kept |
| Gateway.NormalizeUrlOnce | infrastructure/gateway-api/src/Services/GatewayService.ts:11 | any URL ending in two slashes keeps one after a first pass and loses it only on a second, so normalising is not idempotent |
| Gateway.NormalizeFactor | infrastructure/gateway-api/src/Services/GatewayService.ts:201 | a factor above 1 is divided by 100 and rounded to four decimals; anything else passes unchanged |
| Gateway.NormalizeFactorRange | infrastructure/gateway-api/src/Services/GatewayService.ts:201 | a percentage in (1, 100] becomes a factor in [0.01, 1], which a second normalisation keeps |
| Gateway.NormalizeFactorDefault | infrastructure/gateway-api/src/Services/GatewayService.ts:200-201 | 65 and 0.65 both become the default replanting factor 0.65 |
| Gateway.NormalizeFactorAbovePercent | infrastructure/gateway-api/src/Services/GatewayService.ts:201 | 200 becomes 2, which is still above 1 |
| StorageAuth.IdFromHeader | infrastructure/microservices/storage-microservice/src/middleware/GatewayAuth.ts:26 | `Number(v)`, falling back to undefined: the parsed id when there is one and it is not 0, otherwise none |
| StorageAuth.GatewayAuth | infrastructure/microservices/storage-microservice/src/middleware/GatewayAuth.ts:16-31 | 500 whenever the secret is unset or empty; passes iff the key equals the configured secret, otherwise 401; the user is read from the headers with empty values and a zero or non-numeric id read as missing |
| StorageAuth.HeadersRoundTrip | infrastructure/microservices/storage-microservice/src/middleware/GatewayAuth.ts:16-31 | with the same secret on both sides, what `buildInternalHeaders` sends `gatewayAuth` reads back as the same user (id not 0, role and name not empty) |
| StorageAuth.SecretMismatchRefused | infrastructure/microservices/storage-microservice/src/middleware/GatewayAuth.ts:22-24 | with different secrets on the two sides, every forwarded request gets 401 |
| StorageAuth.RequireRoles | infrastructure/microservices/storage-microservice/src/middleware/GatewayAuth.ts:33-40 | `next` iff the role is present and exactly in the list; a missing role gets 403 "Forbidden - role missing", any other 403 "Forbidden - role not allowed" |
| StorageAuth.RequireRolesStricter | infrastructure/microservices/storage-microservice/src/middleware/GatewayAuth.ts:33-40 | a role storage admits the gateway admits too |
| StorageAuth.CaseSplitsTheGuards | infrastructure/microservices/storage-microservice/src/middleware/GatewayAuth.ts:37 | "ADMIN" against ["admin"] passes the gateway but not storage |

## Left out

- Floating point: strengths, factors and prices are exact integers in fixed units. The binary rounding of `toFixed` on floats, and strengths that are not whole hundredths, are not modelled.
- `Math.random`: the default strength of `plantNew` is a parameter `drawn` in [1.00, 5.00].
- Clocks: `new Date()`, `createdAt` and the expiry date. Today is a day number passed in, the receipt clock is calendar fields plus a millisecond timestamp, and creation order is row order.
- Network calls: axios clients, `getPlants`, `plantAndScale` and `sendUsedPlants` are parameters or entries in a returned call log. A failing `sendUsedPlants` after the perfumes exist, and the swallowed `plantAndScale` errors, are not modelled.
- `sleep`: the 500 ms and 2500 ms pauses are returned as a total, not waited; the sales client compares that total with its 15 s time-out.
- Concurrency: send and reserve runs are modelled one at a time; races between concurrent runs are out.
- Persistence of rows and the ORM's `save` are replaced by the in-memory table. `storePackage` data carrying its own id is not modelled.
- The `UserRole` and `PerfumeType` enumerations are not part of this model: the role values are a parameter, and a perfume type is kept as its name.
- `Number()` on headers: only optional-minus decimal integers are parsed. White space, "+", exponents, hexadecimal and fractions read as not a number.
- Letter case: `toLowerCase` is modelled on ASCII letters only.
- JavaScript string length counts UTF-16 code units; the model counts characters.
- Fulfilment.CreateOrderFromStorage: the client's 15 s time-out is counted on storage's pauses only. Database and network latency are not modelled, so a call whose pauses stay under 15 s is taken to return in time.
- Fulfilment.CreateOrderFromStorage: when storage sends nothing, its controller answers 404 and the client's call throws with an HTTP library message. The model answers with storage's own message, "No packages available".
- Controller guards become preconditions: counts are positive integers (`harvestMany`, `getAvailablePlants`, `reservePerfumes`, `createOrder`), so `take: 0` is never reached. Bottles and volumes are natural numbers.
- Receipt saving, unique-number collisions at save time, and the SQL aggregations of the analysis service (`getAllReceipts`, daily revenue, sales by product) are not modelled. Express routing, the PDF report and the client UI are out as well.
- `toDTO` mappings are identity on the modelled fields.
- Production.PlantTable.HarvestMany, Production.PlantTable.AvailablePlants and Processing.PerfumeTable.ListAvailable: these queries name no `order`, so the database promises no particular choice or order of rows. The model takes the matching rows in table order, which is one of the answers the database may give.

=== FILE: common.dfy ===
/** Values shared by every service: optional values, error results and the
    decimal rounding that `Number(x.toFixed(k))` performs. */
module Common {

  datatype Option<T> = None | Some(value: T)

  /** A service call either returns a value or throws an `Error` with a message. */
  datatype Result<T> = Ok(value: T) | Err(message: string)

  function Min(a: int, b: int): (m: int)
    ensures m <= a && m <= b && (m == a || m == b)
  {
    if a <= b then a else b
  }

  /** `r` is `num / den` rounded to the nearest integer, halves away from zero. */
  predicate RoundsTo(r: int, num: int, den: int) {
    && (num >= 0 ==> -den < 2 * (r * den - num) <= den)
    && (num < 0 ==> -den <= 2 * (r * den - num) < den)
  }

  /** `num / den` rounded to the nearest integer, halves away from zero:
      what `Number(q.toFixed(k))` gives when `q = num / den` is measured in
      units of `10^-k`. */
  function RoundDiv(num: int, den: int): (r: int)
    requires den > 0
    ensures RoundsTo(r, num, den)
    ensures num >= 0 ==> r >= 0
  {
    if num >= 0 then RoundUpHalf(num, den) else 0 - RoundUpHalf(-num, den)
  }

  /** Rounding of a non-negative quotient, halves up. */
  function RoundUpHalf(num: nat, den: int): (r: nat)
    requires den > 0
    ensures -den < 2 * (r * den - num) <= den
  {
    var q := (2 * num + den) / (2 * den);
    var rem := (2 * num + den) % (2 * den);
    assert 2 * num + den == q * (2 * den) + rem;
    assert 2 * (q * den - num) == den - rem;
    q
  }

  /** A non-zero multiple of `den` is at least `den` away from zero. */
  lemma {:induction false} MultipleAtLeast(d: int, den: int)
    requires den > 0 && d != 0
    ensures d > 0 ==> d * den >= den
    ensures d < 0 ==> d * den <= -den
    decreases if d < 0 then 1 - d else d
  {
    if d < 0 {
      MultipleAtLeast(-d, den);
      assert d * den == -((-d) * den);
    } else if d > 1 {
      MultipleAtLeast(d - 1, den);
      assert d * den == (d - 1) * den + den;
    }
  }

  /** Rounding an exact multiple does nothing. */
  lemma RoundDivExact(k: int, den: int)
    requires den > 0
    ensures RoundDiv(k * den, den) == k
  {
    var r := RoundDiv(k * den, den);
    if r != k {
      Distribute(r, k, den);
      MultipleAtLeast(r - k, den);
    }
  }

  lemma Distribute(a: int, b: int, c: int)
    ensures a * c - b * c == (a - b) * c
  {
  }

  /** Rounding of non-negative quotients is monotone in the numerator. */
  lemma RoundUpHalfMonotone(a: nat, b: nat, den: int)
    requires den > 0 && a <= b
    ensures RoundUpHalf(a, den) <= RoundUpHalf(b, den)
  {
    var ra, rb := RoundUpHalf(a, den), RoundUpHalf(b, den);
    if ra > rb {
      var ma, mb := ra * den, rb * den;
      assert 2 * (ma - a) <= den && -den < 2 * (mb - b);
      assert ma - mb == (ra - rb) * den;
      MultipleAtLeast(ra - rb, den);
      assert false;
    }
  }

  /** Rounding is monotone in the numerator. */
  lemma RoundDivMonotone(a: int, b: int, den: int)
    requires den > 0 && a <= b
    ensures RoundDiv(a, den) <= RoundDiv(b, den)
  {
    if a >= 0 {
      RoundUpHalfMonotone(a, b, den);
    } else if b < 0 {
      RoundUpHalfMonotone(-b, -a, den);
    }
  }

  /** Multiplying by a non-negative factor keeps the order. */
  lemma MulMonotone(s: int, a: int, b: int)
    requires s >= 0 && a <= b
    ensures s * a <= s * b
  {
    assert s * b - s * a == s * (b - a);
  }
}

=== FILE: distribution.dfy ===
/** Package storage and dispatch in the storage service: packages are
    stored PACKED and sent out oldest first, either in batches of up to
    three (the distributive center) or one at a time (the warehouse
    center). The pauses the centers make between packages are counted in
    milliseconds instead of being waited out. */
module Distribution {
  import opened Common
  import opened Tables
  import opened Text

  datatype PackageStatus = Packed | Sent

  /** A row of the `packages` table. */
  datatype Package = Package(
    id: nat,
    name: string,
    senderAddress: string,
    warehouseId: int,
    perfumeId: Option<int>,
    status: PackageStatus,
    serialNumber: Option<string>)

  /** The fields a caller hands to `storePackage`; a status it carries is ignored. */
  datatype PackageData = PackageData(
    name: string,
    senderAddress: string,
    warehouseId: int,
    perfumeId: Option<int>,
    status: Option<PackageStatus>)

  const PackageSerialPrefix := "PKG-2025-"
  /** The distributive center takes at most three packages per query ... */
  const BatchSize := 3
  /** ... and pauses half a second per package; */
  const BatchPauseMs := 500
  /** the warehouse center pauses two and a half seconds per package. */
  const SinglePauseMs := 2500
  /** The one role served by the distributive center. */
  const SalesManager := "SALES_MANAGER"

  function PackageId(p: Package): nat { p.id }

  function IsPacked(p: Package): bool { p.status == Packed }

  function MarkSent(p: Package): Package { p.(status := Sent) }

  /** Ids come from the auto-increment key and serials from the ids. */
  ghost predicate PackagesValid(rows: seq<Package>, nextId: nat) {
    && nextId >= 1 && IdsValid(rows, PackageId, nextId)
    && forall i :: 0 <= i < |rows| ==> rows[i].serialNumber == Some(Serial(PackageSerialPrefix, rows[i].id))
  }

  /** Sending packages keeps the table valid. */
  lemma SentKeepsValid(before: seq<Package>, after: seq<Package>, sel: seq<nat>, nextId: nat)
    requires PackagesValid(before, nextId) && UpdatedAt(before, after, sel, MarkSent)
    ensures PackagesValid(after, nextId)
  {
    IdsValidUpdate(before, after, sel, MarkSent, PackageId, nextId);
  }

  /** What both centers do for `send(count)`: the packages that
      `find({ where: PACKED, take: count, order: createdAt ASC })` would have
      returned become SENT, nothing else changes, and exactly those
      packages come back, oldest first. */
  ghost predicate SentOldestFirst(before: seq<Package>, after: seq<Package>, count: nat, out: seq<Package>) {
    var plan := FirstMatches(before, IsPacked, count);
    && UpdatedAt(before, after, plan, MarkSent)
    && |out| == |plan|
    && forall k :: 0 <= k < |plan| ==> out[k] == after[plan[k]]
  }

  /** The consequences of sending: at most `count` packages, as many as
      there were PACKED ones up to `count`, each one PACKED before and SENT
      after, none twice, and every package not sent left as it was. */
  lemma SentOutcome(before: seq<Package>, after: seq<Package>, count: nat, out: seq<Package>, nextId: nat)
    requires PackagesValid(before, nextId)
    requires SentOldestFirst(before, after, count, out)
    ensures |out| <= count && |out| == Min(count, |Matches(before, IsPacked)|)
    ensures forall k :: 0 <= k < |out| ==> out[k].status == Sent
    ensures forall k :: 0 <= k < |out| ==> exists i :: 0 <= i < |before| && before[i].status == Packed && out[k] == MarkSent(before[i])
    ensures forall j, k :: 0 <= j < k < |out| ==> out[j].id < out[k].id
    ensures forall i :: 0 <= i < |before| && (forall k :: 0 <= k < |out| ==> out[k].id != before[i].id) ==>
              after[i] == before[i]
  {
    var plan := FirstMatches(before, IsPacked, count);
    forall k | 0 <= k < |out|
      ensures exists i :: 0 <= i < |before| && before[i].status == Packed && out[k] == MarkSent(before[i])
    {
      assert plan[k] in plan;
      assert out[k] == MarkSent(before[plan[k]]);
    }
    forall j, k | 0 <= j < k < |out| ensures out[j].id < out[k].id {
      assert plan[j] in plan && plan[k] in plan;
    }
    forall i | 0 <= i < |before| && (forall k :: 0 <= k < |out| ==> out[k].id != before[i].id)
      ensures after[i] == before[i]
    {
    }
  }

  /** Loop invariant of both centers: the first `|out|` PACKED packages
      have been sent, in order, and nothing else has changed. */
  ghost predicate SentPrefix(before: seq<Package>, rows: seq<Package>, out: seq<Package>) {
    var plan := Matches(before, IsPacked);
    && |out| <= |plan|
    && UpdatedAt(before, rows, plan[..|out|], MarkSent)
    && forall k :: 0 <= k < |out| ==> out[k] == MarkSent(before[plan[k]])
  }

  /** Sending the next package of the plan extends the prefix; the next
      package is the oldest PACKED one left. */
  lemma SentPrefixStep(before: seq<Package>, rows: seq<Package>, out: seq<Package>)
    requires SentPrefix(before, rows, out)
    ensures var plan := Matches(before, IsPacked);
            && Matches(rows, IsPacked) == plan[|out|..]
            && (|out| < |plan| ==>
                  && plan[|out|] < |rows| && rows[plan[|out|]] == before[plan[|out|]]
                  && SentPrefix(before, rows[plan[|out|] := MarkSent(rows[plan[|out|]])],
                                out + [MarkSent(rows[plan[|out|]])]))
  {
    var plan := Matches(before, IsPacked);
    MatchesAfterUpdate(before, rows, IsPacked, MarkSent, |out|);
    if |out| < |plan| {
      UpdatedAtStep(before, rows, plan, |out|, MarkSent);
    }
  }

  /** The next `find({ where: PACKED, take: n })` returns the packages of
      the plan that come after those already sent, and nothing only when
      all of them have been sent. */
  lemma NextCandidates(before: seq<Package>, rows: seq<Package>, out: seq<Package>, n: nat)
    requires SentPrefix(before, rows, out)
    ensures var plan := Matches(before, IsPacked);
            var c := FirstMatches(rows, IsPacked, n);
            && |out| + |c| <= |plan|
            && (c == [] && n > 0 ==> |out| == |plan|)
            && forall j :: 0 <= j < |c| ==> c[j] == plan[|out| + j]
  {
    var plan := Matches(before, IsPacked);
    var c := FirstMatches(rows, IsPacked, n);
    var rest := Matches(rows, IsPacked);
    MatchesAfterUpdate(before, rows, IsPacked, MarkSent, |out|);
    assert rest == plan[|out|..];
    FirstMatchesPrefix(rows, IsPacked, n);
    assert c == rest[..|c|];
    forall j | 0 <= j < |c| ensures c[j] == plan[|out| + j] {
      assert c[j] == rest[j];
    }
  }

  /** The `packages` table. */
  class PackageTable {
    var rows: seq<Package>
    var nextId: nat

    ghost predicate Valid()
      reads this
    {
      PackagesValid(rows, nextId)
    }

    constructor ()
      ensures Valid() && rows == [] && nextId == 1
    {
      rows := [];
      nextId := 1;
    }

    /** `p.status = SENT; save(p)` for the package at position `i`. */
    method MarkSentAt(i: nat) returns (p: Package)
      requires i < |rows|
      modifies this
      ensures p == MarkSent(old(rows)[i]) && rows == old(rows)[i := p] && nextId == old(nextId)
    {
      p := MarkSent(rows[i]);
      rows := rows[i := p];
    }
  }

  /** The distributive center: sends in batches of at most three. */
  class DistributiveCenter {
    const repo: PackageTable

    constructor (repo: PackageTable)
      ensures this.repo == repo
    {
      this.repo := repo;
    }

    /** `send(count)`: queries at most `min(3, count - sent so far)` of the
        oldest PACKED packages, sends each of them, and repeats until
        `count` are sent or none is left. */
    method Send(count: nat) returns (out: seq<Package>, pausedMs: nat)
      requires repo.Valid()
      modifies repo
      ensures repo.Valid() && repo.nextId == old(repo.nextId)
      ensures SentOldestFirst(old(repo.rows), repo.rows, count, out)
      ensures pausedMs == BatchPauseMs * |out|
    {
      ghost var before := repo.rows;
      ghost var plan := Matches(before, IsPacked);
      out := [];
      pausedMs := 0;
      while |out| < count
        invariant repo.nextId == old(repo.nextId)
        invariant |out| <= count && SentPrefix(before, repo.rows, out)
        invariant pausedMs == BatchPauseMs * |out|
        decreases count - |out|
      {
        var toTake := Min(BatchSize, count - |out|);
        NextCandidates(before, repo.rows, out, toTake);
        var candidates := FirstMatches(repo.rows, IsPacked, toTake);
        if |candidates| == 0 {
          break;
        }
        out, pausedMs := SendBatch(before, candidates, out, pausedMs);
      }
      SendFinish(before, repo.rows, count, out);
      SentKeepsValid(before, repo.rows, plan[..|out|], repo.nextId);
    }

    /** One batch: each candidate is paused over, marked SENT, saved and
        appended to the result. */
    method SendBatch(ghost before: seq<Package>, candidates: seq<nat>, out0: seq<Package>, paused0: nat)
      returns (out: seq<Package>, pausedMs: nat)
      requires SentPrefix(before, repo.rows, out0)
      requires |out0| + |candidates| <= |Matches(before, IsPacked)|
      requires forall j :: 0 <= j < |candidates| ==> candidates[j] == Matches(before, IsPacked)[|out0| + j]
      modifies repo
      ensures SentPrefix(before, repo.rows, out) && |out| == |out0| + |candidates|
      ensures pausedMs == paused0 + BatchPauseMs * |candidates| && repo.nextId == old(repo.nextId)
    {
      out, pausedMs := out0, paused0;
      for j := 0 to |candidates|
        invariant |out| == |out0| + j
        invariant repo.nextId == old(repo.nextId)
        invariant SentPrefix(before, repo.rows, out)
        invariant pausedMs == paused0 + BatchPauseMs * j
      {
        SentPrefixStep(before, repo.rows, out);
        pausedMs := pausedMs + BatchPauseMs;
        var p := repo.MarkSentAt(candidates[j]);
        out := out + [p];
      }
    }
  }

  /** The warehouse center: sends one package at a time. */
  class WarehouseCenter {
    const repo: PackageTable

    constructor (repo: PackageTable)
      ensures this.repo == repo
    {
      this.repo := repo;
    }

    /** `send(count)`: up to `count` times, queries the oldest PACKED
        package and sends it, stopping early once none is left. */
    method Send(count: nat) returns (out: seq<Package>, pausedMs: nat)
      requires repo.Valid()
      modifies repo
      ensures repo.Valid() && repo.nextId == old(repo.nextId)
      ensures SentOldestFirst(old(repo.rows), repo.rows, count, out)
      ensures pausedMs == SinglePauseMs * |out|
    {
      ghost var before := repo.rows;
      ghost var plan := Matches(before, IsPacked);
      out := [];
      pausedMs := 0;
      for i := 0 to count
        invariant |out| == i
        invariant repo.nextId == old(repo.nextId)
        invariant SentPrefix(before, repo.rows, out)
        invariant pausedMs == SinglePauseMs * |out|
      {
        SentPrefixStep(before, repo.rows, out);
        FirstMatchesPrefix(repo.rows, IsPacked, 1);
        var candidates := FirstMatches(repo.rows, IsPacked, 1);
        if |candidates| == 0 {
          break;
        }
        pausedMs := pausedMs + SinglePauseMs;
        var p := repo.MarkSentAt(candidates[0]);
        out := out + [p];
      }
      SendFinish(before, repo.rows, count, out);
      SentKeepsValid(before, repo.rows, plan[..|out|], repo.nextId);
    }
  }

  /** Both send loops end with `min(count, #PACKED)` packages sent, which
      is exactly the outcome `SentOldestFirst` describes. */
  lemma SendFinish(before: seq<Package>, after: seq<Package>, count: nat, out: seq<Package>)
    requires |out| <= count && SentPrefix(before, after, out)
    requires |out| == count || |out| == |Matches(before, IsPacked)|
    ensures Matches(before, IsPacked)[..|out|] == FirstMatches(before, IsPacked, count)
    ensures SentOldestFirst(before, after, count, out)
  {
    var plan := Matches(before, IsPacked);
    FirstMatchesPrefix(before, IsPacked, count);
    forall k | 0 <= k < |out| ensures out[k] == after[plan[k]] {
      assert plan[k] in plan[..|out|];
    }
  }

  /** The storage service: package storage and role-based dispatch over
      one package table shared by both centers. */
  class StorageService {
    const repo: PackageTable
    const distributive: DistributiveCenter
    const warehouse: WarehouseCenter

    ghost predicate Valid()
      reads repo
    {
      distributive.repo == repo && warehouse.repo == repo && repo.Valid()
    }

    constructor (repo: PackageTable)
      requires repo.Valid()
      ensures this.repo == repo && Valid()
    {
      this.repo := repo;
      this.distributive := new DistributiveCenter(repo);
      this.warehouse := new WarehouseCenter(repo);
    }

    /** `storePackage`: the package is stored PACKED whatever status the
        data carried, saved once to obtain its id and then given the serial
        `PKG-2025-<id>`. */
    method StorePackage(data: PackageData) returns (p: Package)
      requires Valid()
      modifies repo
      ensures Valid() && repo.nextId == old(repo.nextId) + 1
      ensures repo.rows == old(repo.rows) + [p]
      ensures p.id == old(repo.nextId) && p.status == Packed
      ensures p.serialNumber == Some(Serial(PackageSerialPrefix, p.id))
      ensures p.name == data.name && p.senderAddress == data.senderAddress
      ensures p.warehouseId == data.warehouseId && p.perfumeId == data.perfumeId
    {
      var id := repo.nextId;
      ghost var prev := repo.rows;
      var unsaved := Package(id, data.name, data.senderAddress, data.warehouseId, data.perfumeId, Packed, None);
      repo.rows := repo.rows + [unsaved];
      repo.nextId := repo.nextId + 1;
      p := unsaved.(serialNumber := Some(Serial(PackageSerialPrefix, id)));
      repo.rows := repo.rows[|repo.rows| - 1 := p];
      assert repo.rows == prev + [p];
      IdsValidAppend(prev, PackageId, id, p);
    }

    /** `sendPackagesForRole`: exactly the role "SALES_MANAGER" is served by
        the distributive center; every other role, an absent one included,
        by the warehouse center. The packages sent are the same either way;
        only the pauses differ. */
    method SendForRole(role: Option<string>, count: nat) returns (out: seq<Package>, pausedMs: nat)
      requires Valid()
      modifies repo
      ensures Valid() && repo.nextId == old(repo.nextId)
      ensures SentOldestFirst(old(repo.rows), repo.rows, count, out)
      ensures role == Some(SalesManager) ==> pausedMs == BatchPauseMs * |out|
      ensures role != Some(SalesManager) ==> pausedMs == SinglePauseMs * |out|
    {
      if role == Some(SalesManager) {
        out, pausedMs := distributive.Send(count);
      } else {
        out, pausedMs := warehouse.Send(count);
      }
    }

    /** `listAvailable`: every PACKED package and nothing else, oldest first. */
    function ListAvailable(): (r: seq<Package>)
      requires Valid()
      reads repo
      ensures forall k :: 0 <= k < |r| ==> r[k] in repo.rows && r[k].status == Packed
      ensures forall p :: p in repo.rows && p.status == Packed ==> p in r
      ensures forall j, k :: 0 <= j < k < |r| ==> r[j].id < r[k].id
    {
      var sel := Matches(repo.rows, IsPacked);
      MatchesAll(repo.rows, IsPacked);
      IdsAlong(repo.rows, PackageId, repo.nextId, sel);
      RowsAt(repo.rows, sel)
    }
  }

  /** For the same table and count, both centers send the same packages
      in the same order and leave the same table behind. */
  lemma CentersAgree(before: seq<Package>, after1: seq<Package>, out1: seq<Package>,
                     after2: seq<Package>, out2: seq<Package>, count: nat)
    requires SentOldestFirst(before, after1, count, out1)
    requires SentOldestFirst(before, after2, count, out2)
    ensures after1 == after2 && out1 == out2
  {
    var plan := FirstMatches(before, IsPacked, count);
    assert forall i :: 0 <= i < |before| ==> after1[i] == after2[i];
  }
}

=== FILE: fulfilment.dfy ===
/** `createOrder` together with the storage call it makes: the sales
    service asks storage to send `count` packages under the caller's role
    and records an order only if enough came back. Nothing is undone when
    too few did. */
module Fulfilment {
  import opened Common
  import opened Text
  import opened Distribution
  import opened Sales
  import StorageAuth

  /** What storage answers when it sent nothing. */
  const NoPackagesAvailable := "No packages available"

  /** The sales client gives up on storage's `/send` after 15 s. */
  const ClientTimeoutMs := 15000
  /** The HTTP client's error when that time runs out. */
  const ClientTimedOut := "timeout of 15000ms exceeded"

  /** The pauses storage makes while sending `n` packages for the role it
      sees: 500 ms each at the distributive center, 2500 ms each at the
      warehouse. */
  function PauseFor(seen: Option<string>, n: nat): (ms: nat)
    ensures seen == Some(SalesManager) ==> ms == BatchPauseMs * n
    ensures seen != Some(SalesManager) ==> ms == SinglePauseMs * n
  {
    (if seen == Some(SalesManager) then BatchPauseMs else SinglePauseMs) * n
  }

  /** Whether the caller's request for `n` packages outlasts the client's
      time-out on the pauses alone. */
  predicate TimesOut(role: Option<string>, n: nat) {
    PauseFor(ForwardedRole(role), n) >= ClientTimeoutMs
  }

  /** Six packages through the warehouse, or thirty through the
      distributive center, are already too slow for the client. */
  lemma TimeOutThresholds(role: Option<string>, n: nat)
    ensures role == Some(SalesManager) ==> (TimesOut(role, n) <==> n >= 30)
    ensures role != Some(SalesManager) ==> (TimesOut(role, n) <==> n >= 6)
  {
    if role == Some(SalesManager) {
      assert ForwardedRole(role) == Some(SalesManager);
    } else {
      assert ForwardedRole(role) != Some(SalesManager);
    }
  }

  /** `res.data.map(p => p.id)` */
  function PackageIds(ps: seq<Package>): (ids: seq<int>)
    ensures |ids| == |ps| && forall k :: 0 <= k < |ps| ==> ids[k] == ps[k].id
  {
    seq(|ps|, k requires 0 <= k < |ps| => ps[k].id as int)
  }

  /** The role storage sees: the client sends `role ?? ""` as the role
      header, and `gatewayAuth` reads an empty header as no role. */
  function ForwardedRole(role: Option<string>): (r: Option<string>)
    ensures r.None? <==> Falsy(role)
    ensures r.Some? ==> r == role
  {
    StorageAuth.NonEmpty(Some(if role.Some? then role.value else ""))
  }

  /** `createOrder(customer, address, count, role)` with storage's send:
      the oldest PACKED packages, up to `count`, are SENT first. When the
      pauses storage made reach the client's 15 s time-out, the call fails
      with the client's error and no order, though the packages stay SENT.
      Otherwise the order is recorded, holding their ids, only if there
      were `count` of them. When there were fewer, the call fails and the
      packages stay SENT: storage's 404 when it had none, "Not enough
      packages available for sale" otherwise. */
  method CreateOrderFromStorage(orders: OrderTable, storage: StorageService, customer: string,
                                address: string, count: nat, role: Option<string>)
    returns (r: Result<Order>, sent: seq<Package>)
    requires orders.Valid() && storage.Valid() && count >= 1
    modifies orders, storage.repo
    ensures orders.Valid() && storage.Valid()
    ensures SentOldestFirst(old(storage.repo.rows), storage.repo.rows, count, sent)
    ensures TimesOut(role, |sent|) ==> r == Err(ClientTimedOut) && orders.rows == old(orders.rows)
    ensures !TimesOut(role, |sent|) ==> (r.Err? <==> |sent| < count)
    ensures r.Err? ==> orders.rows == old(orders.rows)
    ensures r.Err? && !TimesOut(role, |sent|) ==>
              r.message == (if sent == [] then NoPackagesAvailable else NotEnoughPackages)
    ensures r.Ok? ==> orders.rows == old(orders.rows) + [r.value]
    ensures r.Ok? ==> r.value.packageIds == PackageIds(sent) && r.value.status == Shipped
  {
    var seen := ForwardedRole(role);
    var pausedMs;
    sent, pausedMs := storage.SendForRole(seen, count);
    assert pausedMs == PauseFor(seen, |sent|);
    if pausedMs >= ClientTimeoutMs {
      return Err(ClientTimedOut), sent;
    }
    if sent == [] {
      return Err(NoPackagesAvailable), sent;
    }
    r := orders.CreateOrder(customer, address, count, PackageIds(sent));
  }
}

=== FILE: gateway.dfy ===
/** The API gateway's own decisions: the role check in front of each route,
    the headers it attaches when forwarding a request to a service, the
    base URLs of those services and the replanting factor it forwards. */
module Gateway {
  import opened Common
  import opened Text
  import Production

  /** The signed-in user the gateway read from the token; every field may
      be missing. */
  datatype User = User(id: Option<int>, role: Option<string>, username: Option<string>)

  /** A middleware either passes the request on or answers it itself. */
  datatype Decision = Next | Deny(status: int, message: string)

  const AccessDenied := "Access denied"

  const KeyHeader := "x-gateway-key"
  const IdHeader := "x-user-id"
  const RoleHeader := "x-user-role"
  const NameHeader := "x-user-name"

  /** `roles.map(r => r.toLowerCase())` */
  function LowerAll(roles: seq<string>): (r: seq<string>)
    ensures |r| == |roles| && forall i :: 0 <= i < |roles| ==> r[i] == Lower(roles[i])
  {
    seq(|roles|, i requires 0 <= i < |roles| => Lower(roles[i]))
  }

  /** `authorize(...roles)`: the request goes on exactly when the user has a
      role that equals one of the allowed roles up to letter case; anything
      else, a missing role included, is answered 403 "Access denied". */
  function Authorize(allowed: seq<string>, role: Option<string>): (d: Decision)
    ensures d.Next? <==> !Falsy(role) && exists i :: 0 <= i < |allowed| && Lower(allowed[i]) == Lower(role.value)
    ensures d.Deny? ==> d == Deny(403, AccessDenied)
    ensures allowed == [] ==> d.Deny?
  {
    var lowered := LowerAll(allowed);
    if Falsy(role) then Deny(403, AccessDenied)
    else if Lower(role.value) !in lowered then Deny(403, AccessDenied)
    else Next
  }

  /** Letter case matters neither in the user's role nor in the allowed list. */
  lemma AuthorizeIgnoresCase(allowed: seq<string>, role: string)
    ensures Authorize(allowed, Some(Lower(role))) == Authorize(allowed, Some(role))
    ensures Authorize(LowerAll(allowed), Some(role)) == Authorize(allowed, Some(role))
  {
    LowerIdempotent(role);
    forall i | 0 <= i < |allowed| ensures Lower(LowerAll(allowed)[i]) == Lower(allowed[i]) {
      LowerIdempotent(allowed[i]);
    }
  }

  /** `buildInternalHeaders`: the gateway secret, or "" when it is unset,
      under "x-gateway-key", and the user's id, role and name under their
      own headers exactly when the user has them; nothing else. */
  function BuildInternalHeaders(secret: Option<string>, user: Option<User>): (h: map<string, string>)
    ensures KeyHeader in h && h[KeyHeader] == (if secret.Some? then secret.value else "")
    ensures IdHeader in h <==> user.Some? && user.value.id.Some?
    ensures IdHeader in h ==> h[IdHeader] == IntToString(user.value.id.value)
    ensures RoleHeader in h <==> user.Some? && user.value.role.Some?
    ensures RoleHeader in h ==> h[RoleHeader] == user.value.role.value
    ensures NameHeader in h <==> user.Some? && user.value.username.Some?
    ensures NameHeader in h ==> h[NameHeader] == user.value.username.value
    ensures h.Keys <= {KeyHeader, IdHeader, RoleHeader, NameHeader}
  {
    var key := if secret.Some? then secret.value else "";
    var h := map[KeyHeader := key];
    var h := if user.Some? && user.value.id.Some? then h[IdHeader := IntToString(user.value.id.value)] else h;
    var h := if user.Some? && user.value.role.Some? then h[RoleHeader := user.value.role.value] else h;
    if user.Some? && user.value.username.Some? then h[NameHeader := user.value.username.value] else h
  }

  /** `normalizeUrl`: a missing or empty URL gives none; otherwise one
      trailing "/" is dropped. */
  function NormalizeUrl(url: Option<string>): (r: Option<string>)
    ensures r.None? <==> Falsy(url)
    ensures r.Some? ==> r.value == url.value || r.value + "/" == url.value
    ensures r.Some? && EndsWith(url.value, '/') ==> |r.value| + 1 == |url.value|
  {
    if Falsy(url) then None
    else if EndsWith(url.value, '/') then Some(url.value[..|url.value| - 1])
    else url
  }

  /** Adding one slash is undone; a URL without one is kept. */
  lemma NormalizeUrlSlash(u: string)
    ensures NormalizeUrl(Some(u + "/")) == Some(u)
    ensures u != [] && !EndsWith(u, '/') ==> NormalizeUrl(Some(u)) == Some(u)
  {
    assert (u + "/")[..|u|] == u;
  }

  /** Only one slash goes, so normalising is not idempotent: a URL ending
      in two slashes keeps one after the first pass. */
  lemma NormalizeUrlOnce(u: string)
    ensures NormalizeUrl(Some(u + "//")) == Some(u + "/")
    ensures NormalizeUrl(NormalizeUrl(Some(u + "//"))) == Some(u)
  {
    NormalizeUrlSlash(u + "/");
    assert u + "/" + "/" == u + "//";
    NormalizeUrlSlash(u);
  }

  /** The factor forwarded by `plantAndScale`, in ten-thousandths: a value
      above 1 is read as a percentage and divided by 100, rounded to four
      decimals; any other value is forwarded as it is. */
  function NormalizeFactor(factorPercent: int): (f: int)
    ensures factorPercent > 10000 ==> RoundsTo(f, factorPercent, 100)
    ensures factorPercent <= 10000 ==> f == factorPercent
  {
    if factorPercent > 10000 then RoundDiv(factorPercent, 100) else factorPercent
  }

  /** A percentage up to 100 becomes a factor between 0.01 and 1, which
      normalising again leaves alone; 65 and 0.65 both give the default
      replanting factor. */
  lemma NormalizeFactorRange(factorPercent: int)
    requires 10000 < factorPercent <= 1000000
    ensures 100 <= NormalizeFactor(factorPercent) <= 10000
    ensures NormalizeFactor(NormalizeFactor(factorPercent)) == NormalizeFactor(factorPercent)
  {
    RoundDivMonotone(100 * 100, factorPercent, 100);
    RoundDivMonotone(factorPercent, 10000 * 100, 100);
    RoundDivExact(100, 100);
    RoundDivExact(10000, 100);
  }

  lemma NormalizeFactorDefault()
    ensures NormalizeFactor(650000) == Production.DefaultFactor
    ensures NormalizeFactor(Production.DefaultFactor) == Production.DefaultFactor
  {
    RoundDivExact(6500, 100);
  }

  /** Above 100 % the result is again above 1: 200 gives 2, which a second
      pass would turn into 0.02. */
  lemma NormalizeFactorAbovePercent()
    ensures NormalizeFactor(2000000) == 20000
    ensures NormalizeFactor(20000) == 200
  {
    RoundDivExact(20000, 100);
    RoundDivExact(200, 100);
  }
}

=== FILE: processing.dfy ===
/** Perfume processing in the storage service: turning plants into bottles,
    and reserving finished perfumes for packaging. Volumes are whole
    millilitres; dates are day numbers. */
module Processing {
  import opened Common
  import opened Tables
  import opened Text

  datatype PerfumeStatus = Available | Reserved

  /** A row of the `perfumes` table. The perfume type is kept as its name,
      since the model never inspects it. */
  datatype Perfume = Perfume(
    id: nat,
    name: string,
    kind: string,
    netVolumeMl: int,
    serialNumber: Option<string>,
    sourcePlantIds: seq<int>,
    expirationDay: int,
    status: PerfumeStatus)

  /** What production answered for one plant: the id and the oil strength
      (in hundredths) may be absent from the answer. */
  datatype SuppliedPlant = SuppliedPlant(id: Option<int>, strength: Option<int>)

  /** The calls processing makes to production after fetching the plants,
      in the order it makes them. The fetch itself, `getPlants`, comes first
      and is modelled by its answer, the `supplied` parameter. */
  datatype ProductionCall =
    | ReplantScaled(sourceStrength: int, factorPercent: int)
    | ReportUsed(ids: seq<int>)

  /** One plant yields 50 ml of perfume. */
  const MlPerPlant := 50
  const ShelfLifeDays := 365
  /** Strengths above 4.00 ask production for a scaled offspring ... */
  const HighStrength := 400
  /** ... planted at 65% of the source strength. */
  const ReplantPercent := 65
  const PerfumeSerialPrefix := "PP-2025-"

  const NotEnoughPlants := "Production couldn't provide required plants"
  const NotEnoughPerfumes := "Not enough perfumes available"
  const PerfumeNotFound := "Perfume not found"

  /** `Math.ceil(bottles * volume / 50)` */
  function PlantsNeeded(bottles: nat, volume: nat): nat {
    (bottles * volume + MlPerPlant - 1) / MlPerPlant
  }

  /** The plants asked for are the fewest whose oil covers the whole batch. */
  lemma PlantsNeededCovers(bottles: nat, volume: nat)
    ensures PlantsNeeded(bottles, volume) * MlPerPlant >= bottles * volume
    ensures PlantsNeeded(bottles, volume) > 0 ==> (PlantsNeeded(bottles, volume) - 1) * MlPerPlant < bottles * volume
  {
    var total := bottles * volume;
    var q := PlantsNeeded(bottles, volume);
    assert total + MlPerPlant - 1 == q * MlPerPlant + (total + MlPerPlant - 1) % MlPerPlant;
  }

  /** The day a perfume made on `today` expires. */
  function ExpirationDay(today: int): (r: int)
    ensures r > today && r - today == ShelfLifeDays
  {
    today + ShelfLifeDays
  }

  /** Whether production's answer for a plant carries a usable id
      (present and not 0). */
  predicate HasUsableId(p: SuppliedPlant) {
    p.id.Some? && p.id.value != 0
  }

  /** `plants.map(p => p.id!).filter(Boolean)`: one id for each plant with
      a usable id, in the order of the answer, and nothing else. */
  function UsableIds(plants: seq<SuppliedPlant>): (ids: seq<int>)
    ensures var m := Matches(plants, HasUsableId);
            |ids| == |m| && forall k :: 0 <= k < |m| ==> plants[m[k]].id == Some(ids[k])
    ensures forall k :: 0 <= k < |ids| ==> ids[k] != 0
    ensures forall x :: x in ids <==> x != 0 && Some(x) in IdsOf(plants)
  {
    if plants == [] then []
    else
      var init := plants[..|plants| - 1];
      var last := plants[|plants| - 1];
      assert plants == init + [last];
      assert IdsOf(plants) == IdsOf(init) + [last.id];
      MatchesSnoc(init, HasUsableId, last);
      UsableIds(init) + (if HasUsableId(last) then [last.id.value] else [])
  }

  function IdsOf(plants: seq<SuppliedPlant>): (r: seq<Option<int>>)
    ensures |r| == |plants| && forall k :: 0 <= k < |plants| ==> r[k] == plants[k].id
  {
    seq(|plants|, k requires 0 <= k < |plants| => plants[k].id)
  }

  /** Whether a supplied plant is strong enough to ask for an offspring. */
  predicate IsStrong(p: SuppliedPlant) {
    p.strength.Some? && p.strength.value != 0 && p.strength.value > HighStrength
  }

  /** The offspring requests for the supplied plants, in order: one per
      plant stronger than 4.00, at 65%, and nothing else. */
  function ReplantRequests(plants: seq<SuppliedPlant>): (r: seq<ProductionCall>)
    ensures var m := Matches(plants, IsStrong);
            |r| == |m| && forall k :: 0 <= k < |m| ==>
              plants[m[k]].strength.Some? && r[k] == ReplantScaled(plants[m[k]].strength.value, ReplantPercent)
    ensures forall k :: 0 <= k < |r| ==>
              r[k].ReplantScaled? && r[k].sourceStrength > HighStrength && r[k].factorPercent == ReplantPercent
  {
    if plants == [] then []
    else
      var init := plants[..|plants| - 1];
      var last := plants[|plants| - 1];
      assert plants == init + [last];
      MatchesSnoc(init, IsStrong, last);
      ReplantRequests(init) + (if IsStrong(last) then [ReplantScaled(last.strength.value, ReplantPercent)] else [])
  }

  /** Every strong plant gets its request, and every request comes from a
      strong plant. */
  lemma ReplantRequestsCover(plants: seq<SuppliedPlant>)
    ensures var r := ReplantRequests(plants);
            && (forall p :: p in plants && IsStrong(p) ==> ReplantScaled(p.strength.value, ReplantPercent) in r)
            && (forall c :: c in r ==> exists p :: p in plants && IsStrong(p) && c == ReplantScaled(p.strength.value, ReplantPercent))
  {
    var r := ReplantRequests(plants);
    var m := Matches(plants, IsStrong);
    forall p | p in plants && IsStrong(p) ensures ReplantScaled(p.strength.value, ReplantPercent) in r {
      var i :| 0 <= i < |plants| && plants[i] == p;
      var k :| 0 <= k < |m| && m[k] == i;
      assert r[k] == ReplantScaled(p.strength.value, ReplantPercent);
    }
    forall c | c in r ensures exists p :: p in plants && IsStrong(p) && c == ReplantScaled(p.strength.value, ReplantPercent) {
      var k :| 0 <= k < |r| && r[k] == c;
      var p := plants[m[k]];
      assert p in plants && IsStrong(p);
    }
  }

  /** The loop over the supplied plants issuing one `plantAndScale` request
      per strong plant. A failed request is only logged, so every request
      is issued whatever the earlier ones answered. */
  method RequestReplants(plants: seq<SuppliedPlant>) returns (calls: seq<ProductionCall>)
    ensures calls == ReplantRequests(plants)
  {
    calls := [];
    for i := 0 to |plants|
      invariant calls == ReplantRequests(plants[..i])
    {
      assert plants[..i + 1][..i] == plants[..i];
      if IsStrong(plants[i]) {
        calls := calls + [ReplantScaled(plants[i].strength.value, ReplantPercent)];
      }
    }
    assert plants[..|plants|] == plants;
  }

  /** The perfume row `processPerfume` leaves behind for one bottle. */
  function Bottle(id: nat, name: string, kind: string, volume: nat, plantIds: seq<int>, today: int): Perfume {
    Perfume(id, name, kind, volume, Some(Serial(PerfumeSerialPrefix, id)), plantIds, ExpirationDay(today), Available)
  }

  /** The perfumes of one batch: `n` bottles under consecutive ids from `first`. */
  function Bottles(first: nat, n: nat, name: string, kind: string, volume: nat, plantIds: seq<int>, today: int): (r: seq<Perfume>)
    ensures |r| == n && forall k :: 0 <= k < n ==> r[k] == Bottle(first + k, name, kind, volume, plantIds, today)
  {
    seq(n, k requires 0 <= k < n => Bottle(first + k, name, kind, volume, plantIds, today))
  }

  lemma BottlesSnoc(first: nat, n: nat, name: string, kind: string, volume: nat, plantIds: seq<int>, today: int)
    ensures Bottles(first, n + 1, name, kind, volume, plantIds, today)
            == Bottles(first, n, name, kind, volume, plantIds, today) + [Bottle(first + n, name, kind, volume, plantIds, today)]
  {
  }

  function PerfumeId(p: Perfume): nat { p.id }

  function MarkReserved(p: Perfume): Perfume { p.(status := Reserved) }

  function IsAvailable(p: Perfume): bool { p.status == Available }

  function AvailableNamed(name: string): Perfume -> bool {
    (p: Perfume) => p.name == name && p.status == Available
  }

  function HasId(id: int): Perfume -> bool {
    (p: Perfume) => p.id as int == id
  }

  /** Every stored perfume carries the serial derived from its own id. */
  ghost predicate SerialsFromIds(rows: seq<Perfume>) {
    forall i :: 0 <= i < |rows| ==> rows[i].serialNumber == Some(Serial(PerfumeSerialPrefix, rows[i].id))
  }

  /** Ids come from the auto-increment key and serials from the ids. */
  ghost predicate TableValid(rows: seq<Perfume>, nextId: nat) {
    nextId >= 1 && IdsValid(rows, PerfumeId, nextId) && SerialsFromIds(rows)
  }

  /** Storing a new bottle under the next id keeps the table valid. */
  lemma BottleAppend(rows: seq<Perfume>, nextId: nat, b: Perfume)
    requires TableValid(rows, nextId) && b.id == nextId
    requires b.serialNumber == Some(Serial(PerfumeSerialPrefix, nextId))
    ensures TableValid(rows + [b], nextId + 1)
  {
    IdsValidAppend(rows, PerfumeId, nextId, b);
  }

  /** The `perfumes` table and the operations of ProcessingService. */
  class PerfumeTable {
    var rows: seq<Perfume>
    var nextId: nat

    ghost predicate Valid()
      reads this
    {
      TableValid(rows, nextId)
    }

    constructor ()
      ensures Valid() && rows == [] && nextId == 1
    {
      rows := [];
      nextId := 1;
    }

    /** The `unique` constraint on the serial column always holds: no two
        perfumes share a serial number. */
    lemma SerialsUnique()
      requires Valid()
      ensures forall i, j :: 0 <= i < j < |rows| ==> rows[i].serialNumber != rows[j].serialNumber
    {
      forall i, j | 0 <= i < j < |rows|
        ensures rows[i].serialNumber != rows[j].serialNumber
      {
        SerialDistinct(PerfumeSerialPrefix, rows[i].id, rows[j].id);
      }
    }

    /** `processPerfume`: production's answer to the `getPlants` request
        made first of all is `supplied`. With too few plants in it the call
        fails before writing anything or making any further request.
        Otherwise it asks for offspring of
        the strong plants, creates one perfume per bottle, each saved first
        and then given the serial of its new id, and reports the plants as
        used last of all. */
    method ProcessPerfume(name: string, kind: string, bottles: nat, volume: nat,
                          supplied: Option<seq<SuppliedPlant>>, today: int)
      returns (r: Result<seq<Perfume>>, calls: seq<ProductionCall>)
      requires Valid()
      modifies this
      ensures Valid()
      ensures supplied.None? || |supplied.value| < PlantsNeeded(bottles, volume) ==>
                && r == Err(NotEnoughPlants) && calls == []
                && rows == old(rows) && nextId == old(nextId)
      ensures supplied.Some? && |supplied.value| >= PlantsNeeded(bottles, volume) ==>
                var ids := UsableIds(supplied.value);
                && calls == ReplantRequests(supplied.value) + [ReportUsed(ids)]
                && r.Ok? && r.value == Bottles(old(nextId), bottles, name, kind, volume, ids, today)
                && rows == old(rows) + r.value && nextId == old(nextId) + bottles
    {
      var needed := PlantsNeeded(bottles, volume);
      if supplied.None? || |supplied.value| < needed {
        return Err(NotEnoughPlants), [];
      }
      var plants := supplied.value;
      var ids := UsableIds(plants);
      calls := RequestReplants(plants);
      var created := CreateBottles(name, kind, bottles, volume, ids, today);
      calls := calls + [ReportUsed(ids)];
      r := Ok(created);
    }

    /** The bottle loop of `processPerfume`. */
    method CreateBottles(name: string, kind: string, bottles: nat, volume: nat, ids: seq<int>, today: int)
      returns (created: seq<Perfume>)
      requires Valid()
      modifies this
      ensures Valid()
      ensures created == Bottles(old(nextId), bottles, name, kind, volume, ids, today)
      ensures rows == old(rows) + created && nextId == old(nextId) + bottles
    {
      created := [];
      for i := 0 to bottles
        invariant Valid()
        invariant created == Bottles(old(nextId), i, name, kind, volume, ids, today)
        invariant rows == old(rows) + created && nextId == old(nextId) + i
      {
        var id := nextId;
        ghost var prev := rows;
        // the first save assigns the id; the serial follows from it
        var unsaved := Perfume(id, name, kind, volume, None, ids, ExpirationDay(today), Available);
        rows := rows + [unsaved];
        nextId := nextId + 1;
        var saved := unsaved.(serialNumber := Some(Serial(PerfumeSerialPrefix, id)));
        rows := rows[|rows| - 1 := saved];
        assert rows == prev + [saved];
        BottleAppend(prev, id, saved);
        BottlesSnoc(old(nextId), i, name, kind, volume, ids, today);
        created := created + [saved];
      }
    }

    /** `listAvailablePerfumes`: the AVAILABLE perfumes, all of them and
        each once. The query names no order; the model lists them in table
        order. */
    function ListAvailable(): (r: seq<Perfume>)
      requires Valid()
      reads this
      ensures forall k :: 0 <= k < |r| ==> r[k] in rows && r[k].status == Available
      ensures forall p :: p in rows && p.status == Available ==> p in r
      ensures forall j, k :: 0 <= j < k < |r| ==> r[j].id < r[k].id
    {
      var sel := Matches(rows, IsAvailable);
      MatchesAll(rows, IsAvailable);
      IdsAlong(rows, PerfumeId, nextId, sel);
      RowsAt(rows, sel)
    }

    /** `getPerfumeById`: the perfume with the id, or "Perfume not found". */
    function GetById(id: int): (r: Result<Perfume>)
      reads this
      ensures r.Err? <==> forall i :: 0 <= i < |rows| ==> rows[i].id as int != id
      ensures r.Err? ==> r.message == PerfumeNotFound
      ensures r.Ok? ==> r.value in rows && r.value.id as int == id
    {
      match FindFirst(rows, HasId(id))
      case None => Err(PerfumeNotFound)
      case Some(i) => Ok(rows[i])
    }

    /** `reservePerfumes`: all or nothing. With fewer than `count` AVAILABLE
        perfumes of the name it fails and reserves none; otherwise exactly
        the `count` oldest of them become RESERVED and are returned.
        Callers pass a positive count. */
    method ReservePerfumes(name: string, count: nat) returns (r: Result<seq<Perfume>>)
      requires Valid() && count >= 1
      modifies this
      ensures Valid() && nextId == old(nextId)
      ensures r.Err? <==> |Matches(old(rows), AvailableNamed(name))| < count
      ensures r.Err? ==> r.message == NotEnoughPerfumes && rows == old(rows)
      ensures r.Ok? ==>
                var sel := FirstMatches(old(rows), AvailableNamed(name), count);
                && |sel| == count && UpdatedAt(old(rows), rows, sel, MarkReserved)
                && r.value == RowsAt(rows, sel)
                && forall k :: 0 <= k < count ==>
                     old(rows)[sel[k]].status == Available
                     && r.value[k].status == Reserved && r.value[k].name == name
    {
      var sel := FirstMatches(rows, AvailableNamed(name), count);
      if |sel| < count {
        return Err(NotEnoughPerfumes);
      }
      UpdateRows(sel);
      r := Ok(RowsAt(rows, sel));
    }

    /** The save loop of `reservePerfumes`: each selected row is loaded,
        marked RESERVED and saved back. */
    method UpdateRows(sel: seq<nat>)
      requires Valid() && Increasing(sel)
      requires forall k :: 0 <= k < |sel| ==> sel[k] < |rows|
      modifies this
      ensures Valid() && nextId == old(nextId)
      ensures UpdatedAt(old(rows), rows, sel, MarkReserved)
      ensures forall k :: 0 <= k < |sel| ==> rows[sel[k]] == MarkReserved(old(rows)[sel[k]])
    {
      ghost var before := rows;
      for k := 0 to |sel|
        invariant nextId == old(nextId)
        invariant UpdatedAt(before, rows, sel[..k], MarkReserved)
      {
        UpdatedAtStep(before, rows, sel, k, MarkReserved);
        rows := rows[sel[k] := MarkReserved(rows[sel[k]])];
      }
      assert sel[..|sel|] == sel;
      IdsValidUpdate(before, rows, sel, MarkReserved, PerfumeId, nextId);
    }
  }
}

=== FILE: production.dfy ===
/** The plant lifecycle kept by the production service (and by its twin, the
    proizvodnja service, whose operations are the same except for
    `plantAndScale`). Strengths are integers in hundredths (4.00 is 400);
    percentages passed to `adjustAromaticStrength` are integers in basis
    points (hundredths of a percent, so 65% is 6500); the proizvodnja
    scaling factor is an integer in ten-thousandths (0.65 is 6500). */
module Production {
  import opened Common
  import opened Tables

  datatype PlantStatus = Planted | Harvested | Processed

  /** Position of a status in the forward-only lifecycle. */
  function Rank(s: PlantStatus): nat {
    match s
    case Planted => 0
    case Harvested => 1
    case Processed => 2
  }

  /** A row of the `plants` table; its DTO carries the same fields. */
  datatype Plant = Plant(
    id: nat,
    commonName: string,
    latinName: string,
    strength: int,
    countryOfOrigin: string,
    status: PlantStatus)

  /** The optional fields a caller may supply when planting (`Partial<PlantDTO>`). */
  datatype Seed = Seed(
    commonName: Option<string>,
    latinName: Option<string>,
    strength: Option<int>,
    countryOfOrigin: Option<string>)

  datatype Mode = Inc | Scale

  datatype LogEntry = LogEntry(time: string, message: string)

  const UnknownPlant := "Unknown Plant"
  const UnknownLatin := "Unknown Latin"
  const UnknownCountry := "Unknown"
  /** 4.00: strengths above it count as high-potency. */
  const Threshold := 400
  /** The factor `plantAndScale` of the proizvodnja service uses when none is given: 0.65. */
  const DefaultFactor := 6500

  /** `x ?? d` */
  function OrElse<T>(x: Option<T>, d: T): T {
    if x.Some? then x.value else d
  }

  function PlantId(p: Plant): nat { p.id }

  function MarkHarvested(p: Plant): Plant { p.(status := Harvested) }

  function MarkProcessed(p: Plant): Plant { p.(status := Processed) }

  function IsPlanted(p: Plant): bool { p.status == Planted }

  function PlantedNamed(name: string): Plant -> bool {
    (p: Plant) => p.commonName == name && p.status == Planted
  }

  function HasId(id: int): Plant -> bool {
    (p: Plant) => p.id as int == id
  }

  /** The new strength `adjustAromaticStrength` stores: with `Inc` the
      strength grows by `bp` basis points of itself, with `Scale` it becomes
      `bp` basis points of itself; either way rounded to two decimals. */
  function AdjustedStrength(s: int, bp: int, mode: Mode): (r: int)
    ensures mode == Inc ==> RoundsTo(r, s * (10000 + bp), 10000)
    ensures mode == Scale ==> RoundsTo(r, s * bp, 10000)
  {
    match mode
    case Inc => RoundDiv(s * 10000 + s * bp, 10000)
    case Scale => RoundDiv(s * bp, 10000)
  }

  /** A percentage increment is a scaling by 100% plus that percentage. */
  lemma IncIsScale(s: int, bp: int)
    ensures AdjustedStrength(s, bp, Inc) == AdjustedStrength(s, 10000 + bp, Scale)
  {
    assert s * 10000 + s * bp == s * (10000 + bp);
  }

  /** Incrementing by 0% and scaling to 100% both keep the strength. */
  lemma AdjustNeutral(s: int)
    ensures AdjustedStrength(s, 0, Inc) == s
    ensures AdjustedStrength(s, 10000, Scale) == s
  {
    RoundDivExact(s, 10000);
  }

  /** A larger percentage never gives a weaker plant (for a non-negative strength). */
  lemma AdjustMonotone(s: int, bp1: int, bp2: int, mode: Mode)
    requires s >= 0 && bp1 <= bp2
    ensures AdjustedStrength(s, bp1, mode) <= AdjustedStrength(s, bp2, mode)
  {
    MulMonotone(s, bp1, bp2);
    var p1, p2 := s * bp1, s * bp2;
    RoundDivMonotone(s * 10000 + p1, s * 10000 + p2, 10000);
    RoundDivMonotone(p1, p2, 10000);
  }

  /** The strength `plantAndScale` of the production service gives the
      offspring: the source strength multiplied by its excess over 4.00 when
      there is one, and unchanged otherwise. */
  function OffspringStrength(s: int): (r: int)
    ensures s <= Threshold ==> r == s
    ensures s > Threshold ==> RoundsTo(r, s * (s - Threshold), 100)
  {
    // `Number((s - 4.0).toFixed(2))` is exact on hundredths
    var deviation := s - Threshold;
    var factor := if deviation > 0 then deviation else 100;
    RoundDiv(s * factor, 100)
  }

  /** Within the strength domain 1.00..5.00 the excess over 4.00 is at most
      1.00, so the offspring is never stronger than its source (and only
      equally strong at 5.00). */
  lemma OffspringNotStronger(s: int)
    requires Threshold < s <= 500
    ensures 0 <= OffspringStrength(s) <= s
    ensures s < 500 ==> OffspringStrength(s) < s
  {
    MulMonotone(s, s - Threshold, 100);
    var n := s * (s - Threshold);
    assert OffspringStrength(s) == RoundDiv(n, 100);
    RoundDivMonotone(0, n, 100);
    RoundDivMonotone(n, s * 100, 100);
    RoundDivExact(s, 100);
    if s < 500 {
      MulMonotone(s, s - Threshold, 99);
      RoundDivMonotone(n, s * 99, 100);
      RoundDivBelow(s);
    }
  }

  /** Taking 99% of a strength above 4.00 and rounding lowers it. */
  lemma RoundDivBelow(s: int)
    requires s > Threshold
    ensures RoundDiv(s * 99, 100) < s
  {
    var r := RoundDiv(s * 99, 100);
    if r >= s {
      MulMonotone(100, s, r);
      assert false;
    }
  }

  /** The strength `plantAndScale(s, f)` of the proizvodnja service gives the
      offspring: `s * f` rounded to two decimals. */
  function ScaledStrength(s: int, factor: int): (r: int)
    ensures RoundsTo(r, s * factor, 10000)
  {
    RoundDiv(s * factor, 10000)
  }

  /** A factor of at most 1 never yields a stronger offspring. */
  lemma ScaledNotStronger(s: int, factor: int)
    requires s >= 0 && 0 <= factor <= 10000
    ensures 0 <= ScaledStrength(s, factor) <= s
  {
    MulMonotone(s, factor, 10000);
    MulMonotone(s, 0, factor);
    RoundDivMonotone(s * factor, s * 10000, 10000);
    RoundDivExact(s, 10000);
  }

  /** Statuses only move forward and rows are never removed or re-keyed. */
  ghost predicate NoRegression(before: seq<Plant>, after: seq<Plant>) {
    && |before| <= |after|
    && forall i :: 0 <= i < |before| ==>
         after[i].id == before[i].id && Rank(before[i].status) <= Rank(after[i].status)
  }

  /** A status update that keeps ids and moves each selected row forward
      moves the table forward. */
  lemma UpdateForward(before: seq<Plant>, after: seq<Plant>, sel: seq<nat>, f: Plant -> Plant)
    requires UpdatedAt(before, after, sel, f)
    requires forall i :: 0 <= i < |before| && i in sel ==>
               f(before[i]).id == before[i].id && Rank(before[i].status) <= Rank(f(before[i]).status)
    ensures NoRegression(before, after)
  {
  }

  /** Harvesting PLANTED plants of a name moves the table
      forward, and every harvested plant has that name. */
  lemma HarvestForward(before: seq<Plant>, after: seq<Plant>, sel: seq<nat>, name: string)
    requires forall k :: 0 <= k < |sel| ==> sel[k] < |before| && PlantedNamed(name)(before[sel[k]])
    requires UpdatedAt(before, after, sel, MarkHarvested)
    ensures NoRegression(before, after)
    ensures forall k :: 0 <= k < |sel| ==>
              after[sel[k]].status == Harvested && after[sel[k]].commonName == name
  {
    forall i | 0 <= i < |before| && i in sel ensures before[i].status == Planted {
      var k :| 0 <= k < |sel| && sel[k] == i;
    }
    UpdateForward(before, after, sel, MarkHarvested);
  }

  /** The `plants` table and the operations of ProductionService. */
  class PlantTable {
    var rows: seq<Plant>
    var nextId: nat

    ghost predicate Valid()
      reads this
    {
      nextId >= 1 && IdsValid(rows, PlantId, nextId)
    }

    constructor ()
      ensures Valid() && rows == [] && nextId == 1
    {
      rows := [];
      nextId := 1;
    }

    /** `plantNew`: inserts a PLANTED plant. The supplied strength is kept
        as is; without one, the strength is `drawn`, the value
        `Number((Math.random() * 4 + 1).toFixed(2))` produced. */
    method PlantNew(seed: Seed, drawn: int) returns (p: Plant)
      requires Valid()
      requires 100 <= drawn <= 500
      modifies this
      ensures Valid() && nextId == old(nextId) + 1
      ensures rows == old(rows) + [p] && NoRegression(old(rows), rows)
      ensures p.id == old(nextId) && p.status == Planted
      ensures p.strength == OrElse(seed.strength, drawn)
      ensures p.commonName == OrElse(seed.commonName, UnknownPlant)
      ensures p.latinName == OrElse(seed.latinName, UnknownLatin)
      ensures p.countryOfOrigin == OrElse(seed.countryOfOrigin, UnknownCountry)
      ensures forall i :: 0 <= i < |old(rows)| ==> old(rows)[i].id != p.id
    {
      var strength := OrElse(seed.strength, drawn);
      p := Plant(nextId,
                 OrElse(seed.commonName, UnknownPlant),
                 OrElse(seed.latinName, UnknownLatin),
                 strength,
                 OrElse(seed.countryOfOrigin, UnknownCountry),
                 Planted);
      IdsValidAppend(rows, PlantId, nextId, p);
      rows := rows + [p];
      nextId := nextId + 1;
    }

    /** `adjustAromaticStrength`: fails with "Plant not found" when no row has
        the id; otherwise only that plant's strength changes. */
    method AdjustStrength(id: int, bp: int, mode: Mode) returns (r: Result<Plant>)
      requires Valid()
      modifies this
      ensures Valid() && nextId == old(nextId) && NoRegression(old(rows), rows)
      ensures FindFirst(old(rows), HasId(id)).None? ==>
                r == Err("Plant not found") && rows == old(rows)
      ensures FindFirst(old(rows), HasId(id)).Some? ==>
                var i := FindFirst(old(rows), HasId(id)).value;
                && rows == old(rows)[i := old(rows)[i].(strength := AdjustedStrength(old(rows)[i].strength, bp, mode))]
                && r == Ok(rows[i])
    {
      var found := FindFirst(rows, HasId(id));
      if found.None? {
        return Err("Plant not found");
      }
      var i := found.value;
      var plant := rows[i];
      plant := plant.(strength := AdjustedStrength(plant.strength, bp, mode));
      rows := rows[i := plant];
      r := Ok(plant);
    }

    /** The save loop shared by `harvestMany` and `markPlantsUsed`: each
        selected row is loaded, changed by `f` and saved back. */
    method UpdateRows(sel: seq<nat>, f: Plant -> Plant)
      requires Valid() && Increasing(sel)
      requires forall k :: 0 <= k < |sel| ==> sel[k] < |rows|
      requires forall p :: f(p).id == p.id
      modifies this
      ensures Valid() && nextId == old(nextId)
      ensures UpdatedAt(old(rows), rows, sel, f)
    {
      ghost var before := rows;
      for k := 0 to |sel|
        invariant nextId == old(nextId)
        invariant UpdatedAt(before, rows, sel[..k], f)
      {
        UpdatedAtStep(before, rows, sel, k, f);
        rows := rows[sel[k] := f(rows[sel[k]])];
      }
      assert sel[..|sel|] == sel;
      IdsValidUpdate(before, rows, sel, f, PlantId, nextId);
    }

    /** `harvestMany`: the first `count` PLANTED plants with the name, in
        table order (the query names no order), become HARVESTED and are
        returned; with none at all it fails with
        "No plants available" and changes nothing. Callers pass a positive
        count. */
    method HarvestMany(name: string, count: nat) returns (r: Result<seq<Plant>>)
      requires Valid() && count >= 1
      modifies this
      ensures Valid() && nextId == old(nextId) && NoRegression(old(rows), rows)
      ensures r.Err? <==> forall i :: 0 <= i < |old(rows)| ==> !PlantedNamed(name)(old(rows)[i])
      ensures r.Err? ==> r.message == "No plants available" && rows == old(rows)
      ensures r.Ok? ==>
                var sel := FirstMatches(old(rows), PlantedNamed(name), count);
                && UpdatedAt(old(rows), rows, sel, MarkHarvested)
                && r.value == RowsAt(rows, sel) && 1 <= |r.value| <= count
                && forall k :: 0 <= k < |sel| ==>
                     old(rows)[sel[k]].status == Planted
                     && r.value[k].status == Harvested && r.value[k].commonName == name
    {
      var sel := FirstMatches(rows, PlantedNamed(name), count);
      if |sel| == 0 {
        forall i | 0 <= i < |rows| ensures !PlantedNamed(name)(rows[i]) {
          assert i !in sel;
        }
        return Err("No plants available");
      }
      assert PlantedNamed(name)(rows[sel[0]]);
      UpdateRows(sel, MarkHarvested);
      HarvestForward(old(rows), rows, sel, name);
      r := Ok(RowsAt(rows, sel));
    }

    /** `markPlantsUsed`: every plant whose id is listed becomes PROCESSED,
        whatever its status; unknown ids are skipped and an empty list
        changes nothing. */
    method MarkPlantsUsed(ids: seq<int>)
      requires Valid()
      modifies this
      ensures Valid() && nextId == old(nextId) && NoRegression(old(rows), rows)
      ensures |rows| == |old(rows)|
      ensures forall i :: 0 <= i < |rows| ==>
                rows[i] == if old(rows)[i].id as int in ids then MarkProcessed(old(rows)[i]) else old(rows)[i]
    {
      if |ids| == 0 {
        return;
      }
      var sel := Matches(rows, HasIdIn(ids));
      UpdateRows(sel, MarkProcessed);
      UpdateForward(old(rows), rows, sel, MarkProcessed);
    }

    /** `getAvailablePlants`: `count` PLANTED plants, or every PLANTED plant
        when there are fewer, each at most once; reads only. The query
        names no order, and the model returns them in table order. Callers
        pass a positive count. */
    function AvailablePlants(count: nat): (r: seq<Plant>)
      requires Valid() && count >= 1
      reads this
      ensures |r| == Min(count, |Matches(rows, IsPlanted)|)
      ensures forall k :: 0 <= k < |r| ==> r[k] in rows && r[k].status == Planted
      ensures |r| < count ==> forall p :: p in rows && p.status == Planted ==> p in r
      ensures forall j, k :: 0 <= j < k < |r| ==> r[j].id < r[k].id
    {
      var sel := FirstMatches(rows, IsPlanted, count);
      FirstMatchesAll(rows, IsPlanted, count);
      IdsAlong(rows, PlantId, nextId, sel);
      RowsAt(rows, sel)
    }

    /** `plantAndScale` of the production service: plants one offspring
        whose strength follows `OffspringStrength`. */
    method PlantAndScale(sourceStrength: int) returns (p: Plant)
      requires Valid()
      modifies this
      ensures Valid() && nextId == old(nextId) + 1
      ensures rows == old(rows) + [p] && NoRegression(old(rows), rows)
      ensures p.id == old(nextId) && p.status == Planted
      ensures p.strength == OffspringStrength(sourceStrength)
      ensures p.commonName == UnknownPlant && p.latinName == UnknownLatin
      ensures p.countryOfOrigin == UnknownCountry
    {
      // the seed carries a strength, so the random draw is never consulted
      p := PlantNew(Seed(None, None, Some(OffspringStrength(sourceStrength)), None), 100);
    }

    /** `plantAndScale(sourceStrength, factor = 0.65)` of the proizvodnja service:
        plants one offspring of strength `sourceStrength * factor`; an omitted
        factor (`None`) is the default 0.65. */
    method PlantAndScaleByFactor(sourceStrength: int, factor: Option<int>) returns (p: Plant)
      requires Valid()
      modifies this
      ensures Valid() && nextId == old(nextId) + 1
      ensures rows == old(rows) + [p] && NoRegression(old(rows), rows)
      ensures p.id == old(nextId) && p.status == Planted
      ensures factor.Some? ==> p.strength == ScaledStrength(sourceStrength, factor.value)
      ensures factor.None? ==> p.strength == ScaledStrength(sourceStrength, DefaultFactor)
      ensures p.commonName == UnknownPlant && p.latinName == UnknownLatin
      ensures p.countryOfOrigin == UnknownCountry
    {
      var f := OrElse(factor, DefaultFactor);
      p := PlantNew(Seed(None, None, Some(ScaledStrength(sourceStrength, f)), None), 100);
    }

    /** `getProductionLogs`: nothing is recorded yet, so the list is empty. */
    method GetProductionLogs() returns (logs: seq<LogEntry>)
      ensures logs == []
    {
      logs := [];
    }
  }

  function HasIdIn(ids: seq<int>): Plant -> bool {
    (p: Plant) => p.id as int in ids
  }
}

=== FILE: receipt.dfy ===
/** Fiscal receipts in the analysis service: line totals, the receipt
    total and the receipt number. Prices are whole cents; the clock
    reading is passed in as calendar fields and a millisecond timestamp. */
module Receipts {
  import opened Common
  import opened Text

  datatype SaleType = Retail | Wholesale

  datatype PaymentType = Cash | Invoice | Card

  /** One line as the client sends it. */
  datatype ItemRequest = ItemRequest(perfumeId: int, perfumeName: string, quantity: int, unitPrice: int)

  /** The receipt as the client sends it. */
  datatype ReceiptRequest = ReceiptRequest(saleType: SaleType, payment: PaymentType, items: seq<ItemRequest>)

  /** A stored line: the request's fields plus the line total. */
  datatype Item = Item(perfumeId: int, perfumeName: string, quantity: int, unitPrice: int, lineTotal: int)

  /** A receipt before the database assigns its id and timestamp. */
  datatype Receipt = Receipt(number: string, saleType: SaleType, payment: PaymentType, total: int, items: seq<Item>)

  const ReceiptPrefix := "FR-"
  /** How many trailing digits of the timestamp the number keeps. */
  const StampDigits := 6

  /** The line built from one requested item: `ukupno = kolicina * jedinicnaCena`. */
  function ToItem(q: ItemRequest): (it: Item)
    ensures it.perfumeId == q.perfumeId && it.perfumeName == q.perfumeName
    ensures it.quantity == q.quantity && it.unitPrice == q.unitPrice
    ensures it.lineTotal == q.quantity * q.unitPrice
  {
    Item(q.perfumeId, q.perfumeName, q.quantity, q.unitPrice, q.quantity * q.unitPrice)
  }

  /** `dto.stavke.map(...)`: one line per requested item, in order. */
  function ToItems(qs: seq<ItemRequest>): (items: seq<Item>)
    ensures |items| == |qs| && forall k :: 0 <= k < |qs| ==> items[k] == ToItem(qs[k])
  {
    seq(|qs|, k requires 0 <= k < |qs| => ToItem(qs[k]))
  }

  /** The sum of the line totals: the reference definition. */
  function Sum(items: seq<Item>): int {
    if items == [] then 0 else items[0].lineTotal + Sum(items[1..])
  }

  /** `items.reduce((sum, s) => sum + s.ukupno, acc)`: a left fold. */
  function Fold(items: seq<Item>, acc: int): int {
    if items == [] then acc else Fold(items[1..], acc + items[0].lineTotal)
  }

  /** The left fold the service runs adds exactly the sum of the lines to
      its starting value; from 0 it gives the sum. */
  lemma {:induction false} FoldIsSum(items: seq<Item>, acc: int)
    ensures Fold(items, acc) == acc + Sum(items)
  {
    if items != [] {
      FoldIsSum(items[1..], acc + items[0].lineTotal);
    }
  }

  /** Totals of joined line lists add up. */
  lemma {:induction false} SumAppend(a: seq<Item>, b: seq<Item>)
    ensures Sum(a + b) == Sum(a) + Sum(b)
  {
    if a != [] {
      assert (a + b)[0] == a[0];
      assert (a + b)[1..] == a[1..] + b;
      SumAppend(a[1..], b);
    } else {
      assert a + b == b;
    }
  }

  /** With whole positive quantities and non-negative prices, as the
      gateway admits, no line total is negative and none exceeds the
      receipt total. */
  lemma {:induction false} SumBounds(items: seq<Item>)
    requires forall k :: 0 <= k < |items| ==> items[k].lineTotal >= 0
    ensures Sum(items) >= 0
    ensures forall k :: 0 <= k < |items| ==> items[k].lineTotal <= Sum(items)
  {
    if items != [] {
      SumBounds(items[1..]);
      forall k | 1 <= k < |items| ensures items[k].lineTotal <= Sum(items) {
        assert items[k] == items[1..][k - 1];
      }
    }
  }

  /** A quantity of at least 1 at a non-negative price gives a
      non-negative line. */
  lemma LineNonNegative(q: ItemRequest)
    requires q.quantity >= 1 && q.unitPrice >= 0
    ensures ToItem(q).lineTotal >= 0
  {
    MulMonotone(q.unitPrice, 0, q.quantity);
  }

  /** `String(n).padStart(2, "0")`. */
  function Pad2(n: nat): (s: string)
    ensures AllDigits(s) && DigitsValue(s) == n
    ensures n < 100 ==> |s| == 2
  {
    var digits := NatToString(n);
    if |digits| < 2 then
      assert digits == [digits[0]];
      assert DigitsValue("0" + digits) == DigitsValue(digits) by {
        DigitsValueSnoc("0", digits[0]);
        assert "0" + digits == "0" + [digits[0]];
      }
      "0" + digits
    else
      TwoDigitsBelow100(n, digits);
      digits
  }

  /** A number below 100 never needs more than two digits. */
  lemma TwoDigitsBelow100(n: nat, digits: string)
    requires digits == NatToString(n) && |digits| >= 2
    ensures n < 100 ==> |digits| == 2
  {
    assert Pow10(2) == 100;
    if n < 100 && |digits| > 2 {
      AtLeastPow(digits, 2);
      assert false;
    }
  }

  /** A digit string longer than `k` without a leading zero denotes at least `10^k`. */
  lemma {:induction false} AtLeastPow(s: string, k: nat)
    requires AllDigits(s) && |s| > k && s[0] != '0'
    ensures DigitsValue(s) >= Pow10(k)
  {
    var init := s[..|s| - 1];
    if |s| == 1 {
      assert init == [];
    } else {
      assert init[0] == s[0];
      var k' := if k == 0 then 0 else k - 1;
      AtLeastPow(init, k');
      MulMonotone(10, Pow10(k'), DigitsValue(init));
    }
  }

  /** `s.slice(-k)`: the last `k` characters, or all of `s` when it is shorter. */
  function Last(s: string, k: nat): (t: string)
    ensures |t| == Min(k, |s|) && t == s[|s| - |t|..]
  {
    if |s| <= k then s else s[|s| - k..]
  }

  function Pow10(k: nat): (p: nat)
    ensures p >= 1
  {
    if k == 0 then 1 else 10 * Pow10(k - 1)
  }

  /** The last `k` digits of a digit string denote its value modulo `10^k`. */
  lemma {:induction false} SuffixValue(s: string, k: nat)
    requires AllDigits(s) && k <= |s|
    ensures DigitsValue(s[|s| - k..]) == DigitsValue(s) % Pow10(k)
  {
    if k == 0 {
      assert s[|s|..] == [];
    } else {
      var init := s[..|s| - 1];
      SuffixValue(init, k - 1);
      var suffix := s[|s| - k..];
      assert suffix[..|suffix| - 1] == init[|init| - (k - 1)..];
      assert suffix[|suffix| - 1] == s[|s| - 1];
      ShiftMod(DigitsValue(init), (s[|s| - 1] as int) - ('0' as int), Pow10(k - 1));
    }
  }

  /** Appending a digit commutes with taking the remainder by a power of ten. */
  lemma ShiftMod(v: nat, c: int, p: nat)
    requires p > 0 && 0 <= c < 10
    ensures (v * 10 + c) % (10 * p) == (v % p) * 10 + c
  {
    var q, lo := v / p, v % p;
    assert v == q * p + lo;
    assert v * 10 + c == q * (10 * p) + (lo * 10 + c);
    ModUnique(v * 10 + c, q, lo * 10 + c, 10 * p);
  }

  /** The remainder is the only value in `[0, m)` that differs from `a` by a multiple of `m`. */
  lemma ModUnique(a: int, q: int, r: int, m: int)
    requires m > 0 && 0 <= r < m && a == q * m + r
    ensures a % m == r
  {
    var q2, r2 := a / m, a % m;
    assert q * m + r == q2 * m + r2;
    if q != q2 {
      assert (q - q2) * m == r2 - r;
      MultipleAtLeast(q - q2, m);
      assert false;
    }
  }

  /** `String(now.getTime()).slice(-6)` */
  function StampSuffix(t: nat): (s: string)
    ensures AllDigits(s) && DigitsValue(s) == t % 1000000
    ensures t >= 100000 ==> |s| == StampDigits
  {
    StampSuffixValue(t);
    if t >= 100000 then (StampSuffixLength(t); Last(NatToString(t), StampDigits))
    else Last(NatToString(t), StampDigits)
  }

  /** The last six digits of a stamp denote the stamp modulo a million. */
  lemma StampSuffixValue(t: nat)
    ensures var s := Last(NatToString(t), StampDigits);
            AllDigits(s) && DigitsValue(s) == t % 1000000
  {
    var digits := NatToString(t);
    if |digits| >= StampDigits {
      LongStampValue(t, digits);
    } else {
      ShortBelowMillion(t, digits);
      assert Last(digits, StampDigits) == digits;
    }
  }

  lemma LongStampValue(t: nat, digits: string)
    requires digits == NatToString(t) && |digits| >= StampDigits
    ensures AllDigits(Last(digits, StampDigits))
    ensures DigitsValue(Last(digits, StampDigits)) == t % 1000000
  {
    var s := Last(digits, StampDigits);
    assert s == digits[|digits| - StampDigits..];
    SuffixValue(digits, StampDigits);
    SixthPower();
    assert DigitsValue(s) == t % Pow10(6);
  }

  /** A stamp of at least 100000 has six digits to keep. */
  lemma StampSuffixLength(t: nat)
    requires t >= 100000
    ensures |Last(NatToString(t), StampDigits)| == StampDigits
  {
    SixDigitsFrom(t, NatToString(t));
  }

  lemma SixthPower()
    ensures Pow10(5) == 100000 && Pow10(6) == 1000000
  {
  }

  /** A number with fewer than six digits is below a million. */
  lemma ShortBelowMillion(t: nat, digits: string)
    requires digits == NatToString(t) && |digits| < 6
    ensures t < 1000000
  {
    if t >= 1000000 {
      LongerDigits(t, 6);
      assert false;
    }
  }

  /** From 100000 on, a number has at least six digits. */
  lemma SixDigitsFrom(t: nat, digits: string)
    requires digits == NatToString(t) && t >= 100000
    ensures |digits| >= 6
  {
    SixthPower();
    LongerDigits(t, 5);
  }

  /** A number of at least `10^k` has more than `k` digits. */
  lemma {:induction false} LongerDigits(t: nat, k: nat)
    requires t >= Pow10(k)
    ensures |NatToString(t)| > k
  {
    if k > 0 {
      assert t >= 10;
      assert t / 10 >= Pow10(k - 1);
      LongerDigits(t / 10, k - 1);
    }
  }

  /** `generateReceiptNumber`: "FR-", the year, the two-digit month and
      day, "-", and the last six digits of the millisecond timestamp. */
  function ReceiptNumber(year: nat, month: nat, day: nat, stamp: nat): (s: string)
    ensures StartsWith(s, ReceiptPrefix)
  {
    var fields := ReceiptFields(year, month, day, stamp);
    assert (ReceiptPrefix + fields)[..|ReceiptPrefix|] == ReceiptPrefix;
    ReceiptPrefix + fields
  }

  /** What follows "FR-" in a receipt number. */
  function ReceiptFields(year: nat, month: nat, day: nat, stamp: nat): string {
    NatToString(year) + Pad2(month) + Pad2(day) + "-" + StampSuffix(stamp)
  }

  /** For a four-digit year, a calendar month and day and a timestamp past
      100000 ms, the number has 18 characters and each field can be read
      back from its place. */
  lemma ReceiptNumberFields(year: nat, month: nat, day: nat, stamp: nat)
    requires 1000 <= year <= 9999 && 1 <= month <= 12 && 1 <= day <= 31 && stamp >= 100000
    ensures var s := ReceiptNumber(year, month, day, stamp);
            && |s| == 18 && s[..3] == ReceiptPrefix && s[11] == '-'
            && AllDigits(s[3..7]) && DigitsValue(s[3..7]) == year
            && AllDigits(s[7..9]) && DigitsValue(s[7..9]) == month
            && AllDigits(s[9..11]) && DigitsValue(s[9..11]) == day
            && AllDigits(s[12..]) && DigitsValue(s[12..]) == stamp % 1000000
  {
    var y := NatToString(year);
    FourDigitYear(year);
    FieldsLayout(y, Pad2(month), Pad2(day), StampSuffix(stamp));
  }

  lemma FourDigitYear(year: nat)
    requires 1000 <= year <= 9999
    ensures |NatToString(year)| == 4
  {
    var y := NatToString(year);
    LongerDigits(year, 3);
    assert Pow10(3) == 1000 && Pow10(4) == 10000;
    if |y| > 4 {
      AtLeastPow(y, 4);
      assert false;
    }
  }

  /** Where each field sits in "FR-" + year + month + day + "-" + stamp. */
  lemma FieldsLayout(y: string, m: string, d: string, st: string)
    requires |y| == 4 && |m| == 2 && |d| == 2 && |st| == StampDigits
    ensures var s := ReceiptPrefix + (y + m + d + "-" + st);
            && |s| == 18 && s[..3] == ReceiptPrefix && s[11] == '-'
            && s[3..7] == y && s[7..9] == m && s[9..11] == d && s[12..] == st
  {
    var f := y + m + d + "-" + st;
    var s := ReceiptPrefix + f;
    assert s[3..] == f;
    assert f[..4] == y && f[4..] == m + d + "-" + st;
    assert s[3..7] == f[..4];
    var g := m + d + "-" + st;
    assert g[..2] == m && g[2..4] == d && g[4] == '-' && g[5..] == st;
    assert s[7..9] == g[..2] && s[9..11] == g[2..4] && s[12..] == g[5..];
  }

  /** The timestamp part wraps every 1,000,000 ms (16 minutes 40 seconds):
      two receipts made that far apart on the same day get the same
      number, although the number column is unique. */
  lemma ReceiptNumberRepeats(year: nat, month: nat, day: nat, stamp: nat)
    requires stamp >= 100000
    ensures ReceiptNumber(year, month, day, stamp) == ReceiptNumber(year, month, day, stamp + 1000000)
  {
    var a, b := StampSuffix(stamp), StampSuffix(stamp + 1000000);
    assert (stamp + 1000000) % 1000000 == stamp % 1000000;
    SameValueSameDigits(a, b);
  }

  /** Two digit strings of the same length with the same value are equal. */
  lemma {:induction false} SameValueSameDigits(a: string, b: string)
    requires AllDigits(a) && AllDigits(b) && |a| == |b|
    requires DigitsValue(a) == DigitsValue(b)
    ensures a == b
  {
    if a != [] {
      var ia, ib := a[..|a| - 1], b[..|b| - 1];
      var ca, cb := (a[|a| - 1] as int) - ('0' as int), (b[|b| - 1] as int) - ('0' as int);
      ModUnique(DigitsValue(a), DigitsValue(ia), ca, 10);
      ModUnique(DigitsValue(a), DigitsValue(ib), cb, 10);
      SameValueSameDigits(ia, ib);
      assert a == ia + [a[|a| - 1]] && b == ib + [b[|b| - 1]];
    }
  }

  /** `createReceipt` before the save: the number from the clock, the sale
      and payment types copied, one line per requested item with its
      total, and the receipt total the sum of the lines. */
  function BuildReceipt(req: ReceiptRequest, year: nat, month: nat, day: nat, stamp: nat): (r: Receipt)
    ensures r.number == ReceiptNumber(year, month, day, stamp)
    ensures r.saleType == req.saleType && r.payment == req.payment
    ensures |r.items| == |req.items|
    ensures forall k :: 0 <= k < |r.items| ==>
              r.items[k].lineTotal == req.items[k].quantity * req.items[k].unitPrice
    ensures r.total == Sum(r.items)
  {
    var items := ToItems(req.items);
    FoldIsSum(items, 0);
    Receipt(ReceiptNumber(year, month, day, stamp), req.saleType, req.payment, Fold(items, 0), items)
  }
}

=== FILE: sales.dfy ===
/** Order fulfilment in the sales service: an order is recorded only when
    storage has sent at least as many packages as were ordered. */
module Sales {
  import opened Common
  import opened Tables
  import opened Text

  datatype OrderStatus = Created | Shipped

  /** A row of the `orders` table. */
  datatype Order = Order(
    id: nat,
    customerName: string,
    deliveryAddress: string,
    packagesRequested: int,
    packageIds: seq<int>,
    serial: Option<string>,
    status: OrderStatus)

  const OrderSerialPrefix := "ORD-2025-"
  const NotEnoughPackages := "Not enough packages available for sale"
  const OrderNotFound := "Order not found"

  function OrderId(o: Order): nat { o.id }

  function HasId(id: int): Order -> bool {
    (o: Order) => o.id as int == id
  }

  /** Ids come from the auto-increment key and serials from the ids. */
  ghost predicate OrdersValid(rows: seq<Order>, nextId: nat) {
    && nextId >= 1 && IdsValid(rows, OrderId, nextId)
    && forall i :: 0 <= i < |rows| ==> rows[i].serial == Some(Serial(OrderSerialPrefix, rows[i].id))
  }

  /** The `orders` table and the operations of SalesService. */
  class OrderTable {
    var rows: seq<Order>
    var nextId: nat

    ghost predicate Valid()
      reads this
    {
      OrdersValid(rows, nextId)
    }

    constructor ()
      ensures Valid() && rows == [] && nextId == 1
    {
      rows := [];
      nextId := 1;
    }

    /** `createOrder`, once storage has answered with the ids of the
        packages it sent: with fewer ids than ordered it fails and records
        nothing; otherwise it records a SHIPPED order holding exactly those
        ids, saved once to obtain its id and then given the serial
        `ORD-2025-<id>`. Callers pass a positive count. */
    method CreateOrder(customer: string, address: string, count: nat, obtained: seq<int>)
      returns (r: Result<Order>)
      requires Valid() && count >= 1
      modifies this
      ensures Valid()
      ensures r.Err? <==> |obtained| < count
      ensures r.Err? ==> r.message == NotEnoughPackages && rows == old(rows) && nextId == old(nextId)
      ensures r.Ok? ==>
                && rows == old(rows) + [r.value] && nextId == old(nextId) + 1
                && r.value.id == old(nextId) && r.value.status == Shipped
                && r.value.customerName == customer && r.value.deliveryAddress == address
                && r.value.packagesRequested == count && r.value.packageIds == obtained
                && r.value.serial == Some(Serial(OrderSerialPrefix, r.value.id))
    {
      if |obtained| < count {
        return Err(NotEnoughPackages);
      }
      var id := nextId;
      ghost var prev := rows;
      var unsaved := Order(id, customer, address, count, obtained, None, Shipped);
      rows := rows + [unsaved];
      nextId := nextId + 1;
      var saved := unsaved.(serial := Some(Serial(OrderSerialPrefix, id)));
      rows := rows[|rows| - 1 := saved];
      assert rows == prev + [saved];
      IdsValidAppend(prev, OrderId, id, saved);
      r := Ok(saved);
    }

    /** `getOrderById`: the order with the id, or "Order not found". */
    function GetById(id: int): (r: Result<Order>)
      reads this
      ensures r.Err? <==> forall i :: 0 <= i < |rows| ==> rows[i].id as int != id
      ensures r.Err? ==> r.message == OrderNotFound
      ensures r.Ok? ==> r.value in rows && r.value.id as int == id
    {
      match FindFirst(rows, HasId(id))
      case None => Err(OrderNotFound)
      case Some(i) => Ok(rows[i])
    }

    /** `listOrders`: every order, newest first. */
    function ListOrders(): (r: seq<Order>)
      requires Valid()
      reads this
      ensures |r| == |rows|
      ensures forall o :: o in r <==> o in rows
      ensures forall j, k :: 0 <= j < k < |r| ==> r[j].id > r[k].id
    {
      NewestFirstSameRows(rows);
      NewestFirst(rows)
    }
  }
}

=== FILE: storage_auth.dfy ===
/** The storage service's guards: `gatewayAuth` admits only requests that
    carry the shared gateway secret and reads the user from the forwarded
    headers; `requireRoles` checks that user's role. */
module StorageAuth {
  import opened Common
  import opened Text
  import opened Gateway

  /** `gatewayAuth` either sets `req.user` and passes on, or answers. */
  datatype AuthOutcome = Authenticated(user: User) | Refused(status: int, message: string)

  const NotConfigured := "GATEWAY_SECRET not configured"
  const InvalidKey := "Unauthorized - invalid gateway key"
  const RoleMissing := "Forbidden - role missing"
  const RoleNotAllowed := "Forbidden - role not allowed"

  /** `req.headers[name]` */
  function Header(headers: map<string, string>, name: string): (v: Option<string>)
    ensures v.Some? <==> name in headers
    ensures v.Some? ==> v.value == headers[name]
  {
    if name in headers then Some(headers[name]) else None
  }

  /** `Number(v) || undefined` on the decimal integer forms: a missing
      header, one that is not a number, and zero all give no id. */
  function IdFromHeader(v: Option<string>): (id: Option<int>)
    ensures id.Some? <==> v.Some? && ParseInt(v.value).Some? && ParseInt(v.value).value != 0
    ensures id.Some? ==> id == ParseInt(v.value)
  {
    if v.None? then None
    else match ParseInt(v.value)
      case None => None
      case Some(n) => if n == 0 then None else Some(n)
  }

  /** `v || undefined` */
  function NonEmpty(v: Option<string>): (r: Option<string>)
    ensures r.None? <==> Falsy(v)
    ensures r.Some? ==> r == v
  {
    if Falsy(v) then None else v
  }

  /** `gatewayAuth`: without a configured secret every request gets 500; a
      key that is missing or differs from the secret gets 401; otherwise the
      user is read from the id, role and name headers, with empty values
      and an id of zero or not a number read as missing. */
  function GatewayAuth(secret: Option<string>, headers: map<string, string>): (r: AuthOutcome)
    ensures Falsy(secret) ==> r == Refused(500, NotConfigured)
    ensures r.Authenticated? <==> !Falsy(secret) && KeyHeader in headers && headers[KeyHeader] == secret.value
    ensures !Falsy(secret) && r.Refused? ==> r == Refused(401, InvalidKey)
    ensures r.Authenticated? ==>
              && r.user.id == IdFromHeader(Header(headers, IdHeader))
              && r.user.role == NonEmpty(Header(headers, RoleHeader))
              && r.user.username == NonEmpty(Header(headers, NameHeader))
  {
    var key := if KeyHeader in headers then headers[KeyHeader] else "";
    var expected := if secret.Some? then secret.value else "";
    if expected == "" then Refused(500, NotConfigured)
    else if key == "" || key != expected then Refused(401, InvalidKey)
    else
      Authenticated(User(
        IdFromHeader(Header(headers, IdHeader)),
        NonEmpty(Header(headers, RoleHeader)),
        NonEmpty(Header(headers, NameHeader))))
  }

  /** What the gateway forwards, storage reads back: with the same
      non-empty secret on both sides, a user whose id is not zero and whose
      role and name are not empty arrives unchanged. */
  lemma HeadersRoundTrip(secret: string, u: User)
    requires secret != ""
    requires u.id != Some(0) && u.role != Some("") && u.username != Some("")
    ensures GatewayAuth(Some(secret), BuildInternalHeaders(Some(secret), Some(u))) == Authenticated(u)
  {
    if u.id.Some? {
      ParseIntToString(u.id.value);
    }
  }

  /** When the two sides hold different secrets, storage refuses whatever
      the gateway forwards. */
  lemma SecretMismatchRefused(gatewaySecret: Option<string>, storageSecret: string, user: Option<User>)
    requires storageSecret != "" && gatewaySecret != Some(storageSecret)
    ensures GatewayAuth(Some(storageSecret), BuildInternalHeaders(gatewaySecret, user)) == Refused(401, InvalidKey)
  {
  }

  /** `requireRoles(...allowed)`: 403 when the user has no role or one not
      in the list, compared exactly; otherwise the request goes on. */
  function RequireRoles(allowed: seq<string>, role: Option<string>): (d: Decision)
    ensures d.Next? <==> !Falsy(role) && role.value in allowed
    ensures Falsy(role) ==> d == Deny(403, RoleMissing)
    ensures !Falsy(role) && role.value !in allowed ==> d == Deny(403, RoleNotAllowed)
  {
    if Falsy(role) then Deny(403, RoleMissing)
    else if role.value !in allowed then Deny(403, RoleNotAllowed)
    else Next
  }

  /** A role storage admits the gateway admits too, but not the other way
      round: the gateway ignores letter case and storage does not. */
  lemma RequireRolesStricter(allowed: seq<string>, role: Option<string>)
    ensures RequireRoles(allowed, role).Next? ==> Authorize(allowed, role).Next?
  {
    if RequireRoles(allowed, role).Next? {
      var i :| 0 <= i < |allowed| && allowed[i] == role.value;
      assert Lower(allowed[i]) == Lower(role.value);
    }
  }

  lemma CaseSplitsTheGuards()
    ensures Authorize(["admin"], Some("ADMIN")).Next?
    ensures RequireRoles(["admin"], Some("ADMIN")).Deny?
  {
    var lowered := Lower("ADMIN");
    assert lowered == "admin";
    assert Lower(["admin"][0]) == "admin";
  }
}

=== FILE: tables.dfy ===
/** In-memory stand-in for the repository queries the services issue. A
    table is a sequence of rows in creation order; the position of a row is
    its place in `ORDER BY createdAt`. A query that names no order is
    answered in the same table order, one of the orders the database may
    use. */
module Tables {
  import opened Common

  /** Strictly increasing positions: no position listed twice, oldest first. */
  predicate Increasing(s: seq<nat>) {
    forall i, j :: 0 <= i < j < |s| ==> s[i] < s[j]
  }

  /** Positions `from..|rows|` whose rows satisfy `P`, in table order. */
  function MatchesFrom<T>(rows: seq<T>, P: T -> bool, from: nat): (r: seq<nat>)
    requires from <= |rows|
    ensures Increasing(r)
    ensures forall k :: 0 <= k < |r| ==> from <= r[k] < |rows| && P(rows[r[k]])
    ensures forall i :: from <= i < |rows| && P(rows[i]) ==> i in r
    decreases |rows| - from
  {
    if from == |rows| then []
    else if P(rows[from]) then [from] + MatchesFrom(rows, P, from + 1)
    else MatchesFrom(rows, P, from + 1)
  }

  /** Every position whose row satisfies `P`, in table order
      (`find({ where: P, order: { createdAt: "ASC" } })`). */
  function Matches<T>(rows: seq<T>, P: T -> bool): (r: seq<nat>)
    ensures Increasing(r)
    ensures forall k :: 0 <= k < |r| ==> r[k] < |rows| && P(rows[r[k]])
    ensures forall i :: 0 <= i < |rows| && P(rows[i]) ==> i in r
  {
    MatchesFrom(rows, P, 0)
  }

  /** The positions `find({ where: P, take: n, order: createdAt ASC })`
      returns: the `n` oldest matching rows, or every matching row when
      there are fewer. */
  function FirstMatches<T>(rows: seq<T>, P: T -> bool, n: nat): (r: seq<nat>)
    ensures |r| == Min(n, |Matches(rows, P)|) && Increasing(r)
    ensures forall k :: 0 <= k < |r| ==> r[k] < |rows| && P(rows[r[k]])
    // no matching row is skipped in favour of a younger one
    ensures forall i :: 0 <= i < |rows| && P(rows[i]) && i !in r ==>
              |r| == n && forall k :: 0 <= k < |r| ==> r[k] < i
  {
    var m := Matches(rows, P);
    var c := Min(n, |m|);
    IncreasingPrefix(m, c);
    m[..c]
  }

  /** A prefix of increasing positions is increasing, and lies below every
      position it leaves out. */
  lemma IncreasingPrefix(m: seq<nat>, c: nat)
    requires Increasing(m) && c <= |m|
    ensures Increasing(m[..c])
    ensures forall i :: i in m && i !in m[..c] ==> c < |m| && forall k :: 0 <= k < c ==> m[..c][k] < i
  {
    forall i | i in m && i !in m[..c] ensures c < |m| && forall k :: 0 <= k < c ==> m[..c][k] < i {
      var j :| 0 <= j < |m| && m[j] == i;
      assert j >= c;
    }
  }

  /** The position `findOne({ where: P })` returns. */
  function FindFirst<T>(rows: seq<T>, P: T -> bool): (r: Option<nat>)
    ensures r.None? <==> forall i :: 0 <= i < |rows| ==> !P(rows[i])
    ensures r.Some? ==> r.value < |rows| && P(rows[r.value])
                        && forall i :: 0 <= i < r.value ==> !P(rows[i])
  {
    var m := Matches(rows, P);
    if |m| == 0 then None
    else
      assert forall i :: 0 <= i < m[0] && P(rows[i]) ==> i in m;
      Some(m[0])
  }

  /** `after` is `before` with `f` applied to the rows at the positions in
      `sel` and every other row unchanged: the effect of a loop that loads
      the selected rows, changes each one and saves it back. */
  ghost predicate UpdatedAt<T>(before: seq<T>, after: seq<T>, sel: seq<nat>, f: T -> T) {
    && |after| == |before|
    && forall i :: 0 <= i < |before| ==>
         after[i] == if i in sel then f(before[i]) else before[i]
  }

  /** One more iteration of such a loop: updating the next selected row. */
  lemma UpdatedAtStep<T>(before: seq<T>, mid: seq<T>, sel: seq<nat>, k: nat, f: T -> T)
    requires Increasing(sel) && k < |sel| && sel[k] < |before|
    requires UpdatedAt(before, mid, sel[..k], f)
    ensures sel[k] < |mid| && mid[sel[k]] == before[sel[k]]
    ensures UpdatedAt(before, mid[sel[k] := f(mid[sel[k]])], sel[..k + 1], f)
  {
    assert sel[k] !in sel[..k];
    forall i | 0 <= i < |before|
      ensures (i in sel[..k + 1]) <==> (i in sel[..k] || i == sel[k])
    {
      assert sel[..k + 1] == sel[..k] + [sel[k]];
    }
  }

  lemma HeadIsMember(s: seq<nat>)
    requires s != []
    ensures s[0] in s
  {
  }

  /** The first of increasing positions is the least. */
  lemma HeadIsLeast(s: seq<nat>, x: nat)
    requires Increasing(s) && x in s
    ensures s[0] <= x
  {
    var j :| 0 <= j < |s| && s[j] == x;
  }

  /** The rest of increasing positions holds every one but the first. */
  lemma TailMembers(s: seq<nat>, x: nat)
    requires Increasing(s) && s != []
    ensures x in s[1..] <==> x in s && x != s[0]
  {
    if x in s && x != s[0] {
      var j :| 0 <= j < |s| && s[j] == x;
      assert s[1..][j - 1] == x;
    }
  }

  /** Two increasing sequences with the same elements are equal. */
  lemma {:induction false} IncreasingUnique(a: seq<nat>, b: seq<nat>)
    requires Increasing(a) && Increasing(b)
    requires forall x :: x in a <==> x in b
    ensures a == b
  {
    if a != [] && b != [] {
      HeadIsMember(a);
      HeadIsMember(b);
      HeadIsLeast(a, b[0]);
      HeadIsLeast(b, a[0]);
      forall x ensures x in a[1..] <==> x in b[1..] {
        TailMembers(a, x);
        TailMembers(b, x);
      }
      IncreasingUnique(a[1..], b[1..]);
      assert a == [a[0]] + a[1..] && b == [b[0]] + b[1..];
    } else if a != [] {
      HeadIsMember(a);
      assert false;
    } else if b != [] {
      HeadIsMember(b);
      assert false;
    }
  }

  /** After a loop has updated the first `k` matching rows so that they no
      longer match, the rows still matching are exactly the rest, in order.
      This is why re-running the same query picks up where the last batch
      stopped. */
  lemma MatchesAfterUpdate<T>(before: seq<T>, after: seq<T>, P: T -> bool, f: T -> T, k: nat)
    requires k <= |Matches(before, P)|
    requires UpdatedAt(before, after, Matches(before, P)[..k], f)
    requires forall t :: !P(f(t))
    ensures Matches(after, P) == Matches(before, P)[k..]
  {
    var m := Matches(before, P);
    var rest := m[k..];
    assert Increasing(rest);
    forall x ensures x in Matches(after, P) <==> x in rest {
      if x in rest {
        var j :| k <= j < |m| && m[j] == x;
        assert x !in m[..k];
        assert after[x] == before[x];
      }
      if x in Matches(after, P) {
        assert x < |after| && P(after[x]);
        assert x !in m[..k];
        assert x in m;
        var j :| 0 <= j < |m| && m[j] == x;
        assert j >= k;
      }
    }
    IncreasingUnique(Matches(after, P), rest);
  }

  /** Row ids are positive, below the next id the table will hand out, and
      ascending in table order (an auto-increment primary key). */
  ghost predicate IdsValid<T>(rows: seq<T>, id: T -> nat, nextId: nat) {
    && (forall i :: 0 <= i < |rows| ==> 1 <= id(rows[i]) < nextId)
    && (forall i, j :: 0 <= i < j < |rows| ==> id(rows[i]) < id(rows[j]))
  }

  /** Rows picked at increasing positions come out in increasing id order. */
  lemma IdsAlong<T>(rows: seq<T>, id: T -> nat, nextId: nat, sel: seq<nat>)
    requires IdsValid(rows, id, nextId) && Increasing(sel)
    requires forall k :: 0 <= k < |sel| ==> sel[k] < |rows|
    ensures forall j, k :: 0 <= j < k < |sel| ==> id(RowsAt(rows, sel)[j]) < id(RowsAt(rows, sel)[k])
  {
  }

  /** Inserting a row under the next id keeps the ids valid. */
  lemma IdsValidAppend<T>(rows: seq<T>, id: T -> nat, nextId: nat, row: T)
    requires IdsValid(rows, id, nextId) && nextId >= 1 && id(row) == nextId
    ensures IdsValid(rows + [row], id, nextId + 1)
  {
  }

  /** Updates that leave the id alone keep the ids valid. */
  lemma IdsValidUpdate<T>(before: seq<T>, after: seq<T>, sel: seq<nat>, f: T -> T, id: T -> nat, nextId: nat)
    requires IdsValid(before, id, nextId) && UpdatedAt(before, after, sel, f)
    requires forall t :: id(f(t)) == id(t)
    ensures IdsValid(after, id, nextId)
  {
    assert forall i :: 0 <= i < |after| ==> id(after[i]) == id(before[i]);
  }

  /** The rows at the given positions, in the order listed. */
  function RowsAt<T>(rows: seq<T>, sel: seq<nat>): (r: seq<T>)
    requires forall k :: 0 <= k < |sel| ==> sel[k] < |rows|
    ensures |r| == |sel| && forall k :: 0 <= k < |sel| ==> r[k] == rows[sel[k]]
  {
    seq(|sel|, k requires 0 <= k < |sel| => rows[sel[k]])
  }

  /** When `find({ where: P, take: n })` returns fewer than `n` rows, it has
      returned every row that matches. */
  lemma FirstMatchesAll<T>(rows: seq<T>, P: T -> bool, n: nat)
    ensures var r := RowsAt(rows, FirstMatches(rows, P, n));
            |r| < n ==> forall x :: x in rows && P(x) ==> x in r
  {
    var sel := FirstMatches(rows, P, n);
    var r := RowsAt(rows, sel);
    forall x | x in rows && P(x) && |r| < n ensures x in r {
      var i :| 0 <= i < |rows| && rows[i] == x;
      assert i in sel;
      var k :| 0 <= k < |sel| && sel[k] == i;
      assert r[k] == x;
    }
  }

  /** `find({ where: P })` returns every row that matches. */
  lemma MatchesAll<T>(rows: seq<T>, P: T -> bool)
    ensures forall x :: x in rows && P(x) ==> x in RowsAt(rows, Matches(rows, P))
  {
    var sel := Matches(rows, P);
    var r := RowsAt(rows, sel);
    forall x | x in rows && P(x) ensures x in r {
      var i :| 0 <= i < |rows| && rows[i] == x;
      var k :| 0 <= k < |sel| && sel[k] == i;
      assert r[k] == x;
    }
  }

  /** A row added at the end matches after every earlier match. */
  lemma MatchesSnoc<T>(rows: seq<T>, P: T -> bool, x: T)
    ensures Matches(rows + [x], P) == Matches(rows, P) + (if P(x) then [|rows|] else [])
  {
    var all := rows + [x];
    var a := Matches(all, P);
    var m := Matches(rows, P);
    var b := m + (if P(x) then [|rows|] else []);
    forall i: nat ensures i in a <==> i in b {
      if i in a {
        if i < |rows| {
          assert all[i] == rows[i];
          assert i in m;
        }
      }
      if i in b && i < |rows| {
        var k :| 0 <= k < |m| && m[k] == i;
        assert all[i] == rows[i];
      }
    }
    IncreasingUnique(a, b);
  }

  /** `find({ where: P, take: n })` is the first part of `find({ where: P })`. */
  lemma FirstMatchesPrefix<T>(rows: seq<T>, P: T -> bool, n: nat)
    ensures FirstMatches(rows, P, n) == Matches(rows, P)[..Min(n, |Matches(rows, P)|)]
  {
  }

  /** The rows in the opposite order: `ORDER BY createdAt DESC`. */
  function NewestFirst<T>(rows: seq<T>): (r: seq<T>)
    ensures |r| == |rows| && forall k :: 0 <= k < |rows| ==> r[k] == rows[|rows| - 1 - k]
  {
    seq(|rows|, k requires 0 <= k < |rows| => rows[|rows| - 1 - k])
  }

  /** Reversing the order keeps exactly the same rows. */
  lemma NewestFirstSameRows<T>(rows: seq<T>)
    ensures forall x :: x in NewestFirst(rows) <==> x in rows
  {
    var r := NewestFirst(rows);
    forall x | x in rows ensures x in r {
      var i :| 0 <= i < |rows| && rows[i] == x;
      assert r[|rows| - 1 - i] == x;
    }
  }
}

=== FILE: text.dfy ===
/** The JavaScript string operations the services rely on: decimal
    formatting of ids (`String(n)`, template literals), parsing a decimal
    header back (`Number(s)`), ASCII lower-casing, `trim`, `startsWith`. */
module Text {
  import opened Common

  predicate IsDigit(c: char) {
    '0' <= c <= '9'
  }

  predicate AllDigits(s: string) {
    forall i :: 0 <= i < |s| ==> IsDigit(s[i])
  }

  function DigitChar(d: nat): (c: char)
    requires d < 10
    ensures IsDigit(c) && (c as int) - ('0' as int) == d
  {
    (d + '0' as int) as char
  }

  /** The number a string of decimal digits denotes (the empty string denotes 0). */
  function DigitsValue(s: string): nat
    requires AllDigits(s)
  {
    if s == [] then 0
    else DigitsValue(s[..|s| - 1]) * 10 + ((s[|s| - 1] as int) - ('0' as int))
  }

  lemma DigitsValueSnoc(s: string, c: char)
    requires AllDigits(s) && IsDigit(c)
    ensures AllDigits(s + [c])
    ensures DigitsValue(s + [c]) == DigitsValue(s) * 10 + ((c as int) - ('0' as int))
  {
    assert (s + [c])[..|s + [c]| - 1] == s;
  }

  /** `String(n)` for a non-negative integer: its shortest decimal form. */
  function NatToString(n: nat): (s: string)
    ensures |s| >= 1 && AllDigits(s)
    ensures DigitsValue(s) == n
    ensures |s| > 1 ==> s[0] != '0'
  {
    if n < 10 then [DigitChar(n)]
    else
      var prefix := NatToString(n / 10);
      DigitsValueSnoc(prefix, DigitChar(n % 10));
      prefix + [DigitChar(n % 10)]
  }

  /** Formatting is injective: two numbers with the same decimal form are equal. */
  lemma NatToStringInjective(a: nat, b: nat)
    requires NatToString(a) == NatToString(b)
    ensures a == b
  {
    assert DigitsValue(NatToString(a)) == a;
  }

  /** `String(i)` for any integer. */
  function IntToString(i: int): (s: string)
    ensures |s| >= 1
    ensures i >= 0 <==> s[0] != '-'
  {
    if i < 0 then "-" + NatToString(-i) else NatToString(i)
  }

  /** `Number(s)` restricted to the decimal integer forms: an optional minus
      sign followed by digits. Every other string reads as `NaN` (`None`). */
  function ParseInt(s: string): (r: Option<int>)
    ensures r.Some? ==> |s| >= 1
  {
    if |s| >= 2 && s[0] == '-' && AllDigits(s[1..]) then Some(-(DigitsValue(s[1..]) as int))
    else if |s| >= 1 && AllDigits(s) then Some(DigitsValue(s))
    else None
  }

  /** Parsing reads back every formatted integer. */
  lemma ParseIntToString(i: int)
    ensures ParseInt(IntToString(i)) == Some(i)
  {
    var s := IntToString(i);
    if i < 0 {
      assert s[1..] == NatToString(-i);
    } else {
      assert s[0] != '-';
    }
  }

  /** A serial number: a fixed prefix followed by the decimal id. */
  function Serial(prefix: string, id: nat): (s: string)
    ensures |s| > |prefix| && s[..|prefix|] == prefix
    ensures AllDigits(s[|prefix|..]) && DigitsValue(s[|prefix|..]) == id
  {
    assert (prefix + NatToString(id))[|prefix|..] == NatToString(id);
    prefix + NatToString(id)
  }

  /** Rows with different ids never share a serial number. */
  lemma SerialInjective(prefix: string, a: nat, b: nat)
    requires Serial(prefix, a) == Serial(prefix, b)
    ensures a == b
  {
    assert Serial(prefix, a)[|prefix|..] == Serial(prefix, b)[|prefix|..];
  }

  lemma SerialDistinct(prefix: string, a: nat, b: nat)
    requires a != b
    ensures Serial(prefix, a) != Serial(prefix, b)
  {
    if Serial(prefix, a) == Serial(prefix, b) {
      SerialInjective(prefix, a, b);
    }
  }

  /** JavaScript truthiness of an optional string: absent and "" are falsy. */
  predicate Falsy(v: Option<string>) {
    v.None? || v.value == []
  }

  predicate StartsWith(s: string, prefix: string) {
    |prefix| <= |s| && s[..|prefix|] == prefix
  }

  predicate EndsWith(s: string, c: char) {
    |s| > 0 && s[|s| - 1] == c
  }

  /** `toLowerCase` on the ASCII letters. */
  function LowerChar(c: char): (l: char)
    ensures !('A' <= l <= 'Z')
    ensures !('A' <= c <= 'Z') ==> l == c
  {
    if 'A' <= c <= 'Z' then ((c as int) + 32) as char else c
  }

  function Lower(s: string): (l: string)
    ensures |l| == |s| && forall i :: 0 <= i < |s| ==> l[i] == LowerChar(s[i])
  {
    seq(|s|, i requires 0 <= i < |s| => LowerChar(s[i]))
  }

  /** Lower-casing twice is lower-casing once. */
  lemma LowerIdempotent(s: string)
    ensures Lower(Lower(s)) == Lower(s)
  {
    assert forall i :: 0 <= i < |s| ==> LowerChar(LowerChar(s[i])) == LowerChar(s[i]);
  }

  /** The characters `String.prototype.trim` removes: white space and line
      terminators, including the Unicode space separators. */
  predicate IsJsSpace(c: char) {
    c == '\t' || c == '\n' || c == '\U{000B}' || c == '\U{000C}' || c == '\r' || c == ' '
    || c == '\U{00A0}' || c == '\U{1680}' || ('\U{2000}' <= c <= '\U{200A}')
    || c == '\U{2028}' || c == '\U{2029}' || c == '\U{202F}' || c == '\U{205F}'
    || c == '\U{3000}' || c == '\U{FEFF}'
  }

  function TrimStart(s: string): (t: string)
    ensures |t| <= |s| && t == s[|s| - |t|..]
    ensures forall i :: 0 <= i < |s| - |t| ==> IsJsSpace(s[i])
    ensures t != [] ==> !IsJsSpace(t[0])
  {
    if s != [] && IsJsSpace(s[0]) then
      var t := TrimStart(s[1..]);
      assert s[1..][|s| - 1 - |t|..] == s[|s| - |t|..];
      assert forall i :: 1 <= i < |s| ==> s[i] == s[1..][i - 1];
      t
    else s
  }

  function TrimEnd(s: string): (t: string)
    ensures |t| <= |s| && t == s[..|t|]
    ensures forall i :: |t| <= i < |s| ==> IsJsSpace(s[i])
    ensures t != [] ==> !IsJsSpace(t[|t| - 1])
  {
    if s != [] && IsJsSpace(s[|s| - 1]) then TrimEnd(s[..|s| - 1]) else s
  }

  /** `s.trim()`: the part of `s` left after dropping white space from both
      ends; it neither starts nor ends with white space. */
  function Trim(s: string): (t: string)
    ensures |t| <= |s|
    ensures |t| <= |TrimStart(s)| && t == s[|s| - |TrimStart(s)|..][..|t|]
    ensures t != [] ==> !IsJsSpace(t[0]) && !IsJsSpace(t[|t| - 1])
    // what is cut from either end is white space
    ensures forall i :: 0 <= i < |s| - |TrimStart(s)| ==> IsJsSpace(s[i])
    ensures forall i :: |t| <= i < |TrimStart(s)| ==> IsJsSpace(TrimStart(s)[i])
  {
    TrimEnd(TrimStart(s))
  }

  /** Trimming leaves nothing exactly when the string is all white space. */
  lemma TrimEmptyIffBlank(s: string)
    ensures Trim(s) == [] <==> forall i :: 0 <= i < |s| ==> IsJsSpace(s[i])
  {
    if Trim(s) == [] {
      BlankTail(TrimStart(s), s);
    }
  }

  /** A suffix of `s` made only of white space, after a prefix of white
      space, leaves `s` all white space. */
  lemma BlankTail(u: string, s: string)
    requires |u| <= |s| && u == s[|s| - |u|..]
    requires forall i :: 0 <= i < |s| - |u| ==> IsJsSpace(s[i])
    requires TrimEnd(u) == []
    ensures forall i :: 0 <= i < |s| ==> IsJsSpace(s[i])
  {
    var k := |s| - |u|;
    forall i | k <= i < |s| ensures IsJsSpace(s[i]) {
      assert s[i] == u[i - k];
    }
  }
}

=== FILE: users.dfy ===
/** The request validators of the user service. Each runs its checks in a
    fixed order and answers with the first one that fails. */
module Users {
  import opened Common
  import opened Text

  /** A field of the request body: absent, or the string sent. */
  type Field = Option<string>

  /** The body of a create request. */
  datatype CreateUserData = CreateUserData(
    username: Field, email: Field, firstName: Field, lastName: Field,
    role: Field, profileImage: Field)

  /** The body of an update request; every field may be left out. */
  datatype UpdateUserData = UpdateUserData(
    email: Field, firstName: Field, lastName: Field,
    role: Field, profileImage: Field)

  /** `{ success, message? }` */
  datatype Verdict = Verdict(success: bool, message: Option<string>)

  const UsernameTooShort := "Username must be at least 3 characters long"
  const InvalidEmail := "Invalid email address"
  const FirstNameTooShort := "First name must be at least 2 characters long"
  const LastNameTooShort := "Last name must be at least 2 characters long"
  const FirstNameShort := "First name too short"
  const LastNameShort := "Last name too short"
  const InvalidRole := "Invalid role"
  const ImageRequired := "Profile image is required"
  const ImageNotBase64 := "Profile image must be base64 encoded"
  const ImagePrefix := "data:image"

  /** A present, non-empty string that is shorter than `n` once trimmed. */
  predicate ShortWhenTrimmed(v: Field, n: nat) {
    !Falsy(v) && |Trim(v.value)| < n
  }

  /** An absent or empty string, or one shorter than `n` once trimmed. */
  predicate MissingOrShort(v: Field, n: nat) {
    Falsy(v) || |Trim(v.value)| < n
  }

  /** An absent or empty string, or one without an "@". */
  predicate MissingOrLacksAt(v: Field) {
    Falsy(v) || '@' !in v.value
  }

  /** A present, non-empty string without an "@". */
  predicate LacksAt(v: Field) {
    !Falsy(v) && '@' !in v.value
  }

  /** A present, non-empty string that is not a data URL of an image. */
  predicate NotImageData(v: Field) {
    !Falsy(v) && !StartsWith(v.value, ImagePrefix)
  }

  /** A role outside the values of the role enumeration, which is given
      as `roles`; an absent role is never one of them. */
  predicate UnknownRole(v: Field, roles: set<string>) {
    v.None? || v.value !in roles
  }

  function Reject(message: string): Verdict {
    Verdict(false, Some(message))
  }

  const Accept := Verdict(true, None)

  /** One step of a validator: whether its check fails, and the message it
      then answers with. */
  datatype Check = Check(fails: bool, message: string)

  /** The reference reading of a chain of early returns: the checks run in
      order and the first failing one gives the answer. */
  function FirstFailure(checks: seq<Check>): (r: Verdict)
    ensures r.success <==> forall i :: 0 <= i < |checks| ==> !checks[i].fails
    ensures r.success ==> r.message == None
    ensures !r.success ==>
              exists i :: 0 <= i < |checks| && checks[i].fails && r.message == Some(checks[i].message)
                          && forall j :: 0 <= j < i ==> !checks[j].fails
  {
    if checks == [] then Accept
    else if checks[0].fails then Reject(checks[0].message)
    else
      var r := FirstFailure(checks[1..]);
      assert !r.success ==> exists i :: 1 <= i < |checks| && checks[i].fails && r.message == Some(checks[i].message)
                                       && forall j :: 0 <= j < i ==> !checks[j].fails by {
        if !r.success {
          var i :| 0 <= i < |checks[1..]| && checks[1..][i].fails && r.message == Some(checks[1..][i].message)
                   && forall j :: 0 <= j < i ==> !checks[1..][j].fails;
          assert forall j :: 0 <= j < i + 1 ==> !checks[j].fails by {
            forall j | 0 <= j < i + 1 ensures !checks[j].fails {
              if j > 0 { assert checks[j] == checks[1..][j - 1]; }
            }
          }
        }
      }
      r
  }

  /** The answer of the checks is fixed by the first failing one. */
  lemma FirstFailureAt(checks: seq<Check>, i: nat)
    requires i < |checks| && checks[i].fails && forall j :: 0 <= j < i ==> !checks[j].fails
    ensures FirstFailure(checks) == Reject(checks[i].message)
  {
    var r := FirstFailure(checks);
    var k :| 0 <= k < |checks| && checks[k].fails && r.message == Some(checks[k].message)
             && forall j :: 0 <= j < k ==> !checks[j].fails;
    assert k == i;
  }

  /** The checks of `validateCreateUser`, in the order it makes them. */
  function CreateChecks(d: CreateUserData, roles: set<string>): seq<Check> {
    [ Check(MissingOrShort(d.username, 3), UsernameTooShort),
      Check(MissingOrLacksAt(d.email), InvalidEmail),
      Check(MissingOrShort(d.firstName, 2), FirstNameTooShort),
      Check(MissingOrShort(d.lastName, 2), LastNameTooShort),
      Check(UnknownRole(d.role, roles), InvalidRole),
      Check(NotImageData(d.profileImage), ImageNotBase64) ]
  }

  /** `validateCreateUser`: the username must have 3 characters and the
      names 2 after trimming, the email must contain "@", the role must be
      one of `roles`, and a profile image, which may be left out, must be a
      "data:image" URL. The message is that of the first check, in this
      order, that fails. */
  function ValidateCreateUser(d: CreateUserData, roles: set<string>): (r: Verdict)
    ensures r.success <==>
              && !Falsy(d.username) && |Trim(d.username.value)| >= 3
              && !Falsy(d.email) && '@' in d.email.value
              && !Falsy(d.firstName) && |Trim(d.firstName.value)| >= 2
              && !Falsy(d.lastName) && |Trim(d.lastName.value)| >= 2
              && d.role.Some? && d.role.value in roles
              && (Falsy(d.profileImage) || StartsWith(d.profileImage.value, ImagePrefix))
  {
    if MissingOrShort(d.username, 3) then Reject(UsernameTooShort)
    else if MissingOrLacksAt(d.email) then Reject(InvalidEmail)
    else if MissingOrShort(d.firstName, 2) then Reject(FirstNameTooShort)
    else if MissingOrShort(d.lastName, 2) then Reject(LastNameTooShort)
    else if UnknownRole(d.role, roles) then Reject(InvalidRole)
    else if NotImageData(d.profileImage) then Reject(ImageNotBase64)
    else Accept
  }

  /** The checks of `validateUpdateUser`, in the order it makes them. */
  function UpdateChecks(d: UpdateUserData, roles: set<string>): seq<Check> {
    [ Check(LacksAt(d.email), InvalidEmail),
      Check(ShortWhenTrimmed(d.firstName, 2), FirstNameShort),
      Check(ShortWhenTrimmed(d.lastName, 2), LastNameShort),
      Check(!Falsy(d.role) && d.role.value !in roles, InvalidRole),
      Check(Falsy(d.profileImage), ImageRequired),
      Check(NotImageData(d.profileImage), ImageNotBase64) ]
  }

  /** `validateUpdateUser`: email, names and role are checked only when
      sent, while a "data:image" profile image is always required. The
      message is that of the first check, in this order, that fails. */
  function ValidateUpdateUser(d: UpdateUserData, roles: set<string>): (r: Verdict)
    ensures r.success <==>
              && (Falsy(d.email) || '@' in d.email.value)
              && (Falsy(d.firstName) || |Trim(d.firstName.value)| >= 2)
              && (Falsy(d.lastName) || |Trim(d.lastName.value)| >= 2)
              && (Falsy(d.role) || d.role.value in roles)
              && !Falsy(d.profileImage) && StartsWith(d.profileImage.value, ImagePrefix)
    ensures Falsy(d.profileImage) ==> !r.success
  {
    if LacksAt(d.email) then Reject(InvalidEmail)
    else if ShortWhenTrimmed(d.firstName, 2) then Reject(FirstNameShort)
    else if ShortWhenTrimmed(d.lastName, 2) then Reject(LastNameShort)
    else if !Falsy(d.role) && d.role.value !in roles then Reject(InvalidRole)
    else if Falsy(d.profileImage) then Reject(ImageRequired)
    else if !StartsWith(d.profileImage.value, ImagePrefix) then Reject(ImageNotBase64)
    else Accept
  }

  /** The early returns of `validateCreateUser` are its checks run in order. */
  lemma CreateFollowsChecks(d: CreateUserData, roles: set<string>)
    ensures ValidateCreateUser(d, roles) == FirstFailure(CreateChecks(d, roles))
  {
    SixChecks(CreateChecks(d, roles));
  }

  /** The early returns of `validateUpdateUser` are its checks run in order. */
  lemma UpdateFollowsChecks(d: UpdateUserData, roles: set<string>)
    ensures ValidateUpdateUser(d, roles) == FirstFailure(UpdateChecks(d, roles))
  {
    SixChecks(UpdateChecks(d, roles));
  }

  /** Six checks run in order, written out as early returns. */
  lemma SixChecks(cs: seq<Check>)
    requires |cs| == 6
    ensures FirstFailure(cs) ==
              if cs[0].fails then Reject(cs[0].message)
              else if cs[1].fails then Reject(cs[1].message)
              else if cs[2].fails then Reject(cs[2].message)
              else if cs[3].fails then Reject(cs[3].message)
              else if cs[4].fails then Reject(cs[4].message)
              else if cs[5].fails then Reject(cs[5].message)
              else Accept
  {
    if cs[0].fails { FirstFailureAt(cs, 0); }
    else if cs[1].fails { FirstFailureAt(cs, 1); }
    else if cs[2].fails { FirstFailureAt(cs, 2); }
    else if cs[3].fails { FirstFailureAt(cs, 3); }
    else if cs[4].fails { FirstFailureAt(cs, 4); }
    else if cs[5].fails { FirstFailureAt(cs, 5); }
  }

  /** The same fields sent as an update. */
  function AsUpdate(d: CreateUserData): UpdateUserData {
    UpdateUserData(d.email, d.firstName, d.lastName, d.role, d.profileImage)
  }

  /** Whatever passes creation with a profile image also passes as an
      update: the update checks are the create checks made optional, plus
      the required image. */
  lemma CreateThenUpdate(d: CreateUserData, roles: set<string>)
    requires ValidateCreateUser(d, roles).success && !Falsy(d.profileImage)
    ensures ValidateUpdateUser(AsUpdate(d), roles).success
  {
  }

  /** A username of white space only is refused for being too short, before
      any other field is looked at. */
  lemma BlankUsernameRejected(d: CreateUserData, roles: set<string>)
    requires d.username.Some? && forall i :: 0 <= i < |d.username.value| ==> IsJsSpace(d.username.value[i])
    ensures ValidateCreateUser(d, roles) == Reject(UsernameTooShort)
  {
    TrimEmptyIffBlank(d.username.value);
  }
}
